=== FILE: README.md ===
# Minislack server core in Dafny

A model of the sequential core of the Minislack chat server. Clients send
one text line per request over TCP. The server parses each line into a
command, and a single hub applies the commands to its state.

The model covers four parts:

- **The command parser** (`Parser`, module file `parser.dfy`). It models
  `handle` and the per-keyword helpers `reg`, `join`, `leave`, `msg`,
  `files`, `get` and `send` (as far as its argument checks), plus `chns`,
  `usrs`, `err` and the `DELIMITER` constant.
  - One line becomes exactly one `Outcome`: a command for the hub, a
    registration, an upload request, or an error reply written back.
  - A Go slice is a view into a larger array. `msg` cuts the body from
    its trimmed arguments and may read past them up to the end of the
    line. The model therefore carries, next to the trimmed arguments, the
    bytes from their start to the end of the line (`ArgsCap`).
  - Go's runtime panics are preconditions: `Defined(line)` holds exactly
    when handling the line reads no byte or slice out of range.
  - `Wire` renders every well-formed request as the line a client sends.
    It proves that handling that line gives back the request
    (`Wire.HandleRender`).
  - `Quirks` pins down how the parser treats unusual lines.
- **The hub** (`Hubs`, `HubLaws`). It models the two maps, `register`,
  `deregister`, `joinChannel`, the four membership predicates, and `run`
  as a function from one event to one transition. `HubLaws` proves:
  - an invariant every step keeps, for hubs where each departing
    connection's client is stored under its own name;
  - what undoes what, and what repeating an event does;
  - how a connection's old name can outlive it.
- **Channels** (`Channels`). The channel record, `newChannel`, and
  `broadcast`: one line, written once to every member.
- **Delivery** (`Delivery`). A rendered MSG, JOIN or LEAVE line, once
  handled, makes the hub call the matching handler with the fields the
  client wrote.
- **Small helpers**:
  - `FileStore`: the file record, `newFile`, and the newline escaping of
    `replaceReturns`, with its exact round-trip condition;
  - `Replies`: the reply framing of `communicate` and `commUsernameTaken`;
  - `Commands`: the command kinds and the command record;
  - `Bytes`: the routines of Go's `bytes` and `strconv` that the parser
    uses.

Bytes are `char`s of a `string`, and white space and case are ASCII.
Connections and `*client` references are both `ConnId`s, since each client
owns one connection. A write to a connection is a value: a `Write` record
or an `Outcome`.

Behaviour of the code that the model keeps:

- The broadcast line is `sender + "[" + channel + "]: " + message + "\n"`:
  the channel name in brackets comes between the sender and the message.
- The MSG delimiter is the four bytes backslash, `r`, backslash, `n`,
  because `DELIMITER` is a raw string.
- SEND takes a channel, a file name and a local path, and the file is then
  read from disk. The parser does not unescape `//` in anything it reads.
- Parser errors are written as `"ERR "`, the error text and `"\n"`. The
  error text of every check the model covers starts with the marker
  `->> ERR` (followed by `: `, or by ` : ` in the FILES name error), so the
  marker sits after `ERR `. The file-system errors of `send` are passed on
  as Go returns them and carry no marker; they are left out.
- `register` writes `OK\n` or `ERR username taken\n` itself and does not
  use `communicate`.
- `run` passes the sending client to `joinChannel`, which expects a
  username. The model passes the sender's username.
- The "username cannot be blank" check of `reg` can never fire: an empty
  name is indexed first, which panics.
- A body without `//` can still come back wrong from escaping and
  unescaping: a slash before a newline is misread
  (`FileStore.SlashBeforeNewlineIsMisread`). The exact condition for a
  body to come back is proved instead (`FileStore.ReplaceReturnsRoundTrip`).

## Model

| member | source | states |
|---|---|---|
| Bytes.TrimSpaceStrips | client.go:49-50 | the trimmed bytes are the contiguous run of the input after its leading white space; everything before and after them is white space, and when not empty they neither start nor end with white space |
| Bytes.TrimSpaceIdempotent | client.go:91 | trimming arguments that were already trimmed changes nothing and leaves no leading white space |
| Bytes.FirstField | client.go:49 | the first space-separated field is a prefix of the line, holds no space, and ends at a space or at the end of the line |
| Bytes.AtoiItoa | client.go:148 | the decimal rendering of any length up to the int64 maximum parses back to that length |
| Parser.ErrorReplyShape | client.go:288-290 | an error reply is exactly "ERR ", the error text and one newline, five bytes longer than the text |
| Parser.Lookup | client.go:52-87 | a keyword names a command kind exactly when it is one of the nine keywords, and that kind is the one whose keyword it is |
| Parser.LookupName | client.go:52-84 | every command kind is reached from its own keyword |
| Parser.NameInjective | client.go:52-84 | different command kinds have different keywords |
| Parser.RegChecks | client.go:90-103 | reg accepts exactly the trimmed names starting with '@', the name becomes the username, the only error is the sigil error, and the blank-name error never occurs |
| Parser.JoinChecks | client.go:105-118 | join succeeds exactly when the trimmed argument starts with '#', and then builds a JOIN command from the sender with that channel as recipient; otherwise it gives join's sigil error |
| Parser.LeaveChecks | client.go:120-133 | leave succeeds exactly when the trimmed argument starts with '#', and then builds a LEAVE command with that channel as recipient; otherwise it gives leave's own sigil error |
| Parser.MsgRecipientChecks | client.go:136-144 | supporting lemma of Parser.MsgFrameChecks: arguments without a '#' or '@' sigil give the sigil error; a sigil with a one-byte first field gives the name error; only a first field with a sigil, a name and no space gets past |
| Parser.MsgFrameRest | client.go:141-146 | supporting lemma of Parser.MsgFrameChecks: with a valid recipient field, msg's remaining checks are the length checks on the trimmed arguments after that field, and on the bytes from the end of that field to the end of the line |
| Parser.RestCap | client.go:146-157 | the bytes from the end of the recipient field to the end of the line start with the rest of the trimmed arguments, so the body slice can be cut from them |
| Parser.MsgFrameChecks | client.go:135-154 | a wrong sigil gives the recipient error, and a one-byte recipient field gives the name error; otherwise the outcome is that of the length checks on what follows the recipient; an accepted frame's recipient is the first field of the trimmed arguments; every error is one of msg's four |
| Parser.LengthFrameChecks | client.go:146-154 | the digits are the trimmed rest before its first delimiter; text that is not an integer gives exactly the missing-length error, zero gives exactly the zero-length error, and any other value is accepted with that length, the recipient, and a tail that is the rest of the line from the first digit on |
| Parser.MsgCommandChecks | client.go:156-166 | an accepted frame gives a MSG command from the sender to the recipient whose body has exactly `length` bytes and directly follows the digits and the delimiter's width in the line; an error passes through unchanged |
| Parser.FilesChecks | client.go:169-187 | files accepts exactly trimmed channels of two bytes or more starting with '#'; a channel of at most one byte gives the name error before the sigil is looked at |
| Parser.SendChecks | client.go:189-204 | no '#' gives the channel-sigil error; a one-byte channel field gives the channel-name error; a one-byte file name field gives the file-name error; otherwise the request is accepted, with the first field as channel, the first field of the trimmed rest as file name, and what follows that name, trimmed, as path |
| Parser.SendCommand | client.go:217-240 | the SEND command's body is the file name, a newline and the file's contents, in that order, addressed to the requested channel |
| Parser.GetChecks | client.go:245-272 | no '#' gives the channel-sigil error; a one-byte channel field gives the channel-name error; an empty trimmed remainder gives the missing-file-name error; otherwise it is a GET command from the sender to the first field, with the trimmed remainder as body |
| Parser.DispatchShape | client.go:52-84 | each recognised keyword's outcome comes from its own helper: commands carry the sender and that kind, a registration carries a name starting with '@', an upload comes only from SEND, and every reply is an error reply |
| Parser.HandleShape | client.go:48-88 | an unknown keyword is answered with the unknown-command error naming it and emits nothing; a command has the line's keyword as its kind and the connection's client as sender; only REG registers, only SEND uploads, CHNS and USRS give the bare command |
| Parser.HandleKnown | client.go:52-84 | a recognised keyword whose helper does not panic on the arguments makes handle do exactly what that helper does |
| Commands.Bare | client.go:274-286 | the command CHNS and USRS send has only the sender and the kind set; recipient, header and body are empty |
| Commands.CodesFollowDeclaration | command.go:5-15 | there are exactly nine kinds, and each has its declaration position, 0 to 8, as its code |
| Commands.CodeRoundTrip | command.go:5-15 | decoding a kind's code gives the kind back |
| Commands.CodesDistinct | command.go:5-15 | different kinds have different codes |
| Commands.FromCode | command.go:5-15 | exactly the codes below nine denote a kind, and that kind has the code |
| Wire.HandleRender | client.go:48-272 | handling the line of any well-formed request does not panic, and gives exactly the command, registration or upload the request stands for |
| Wire.OneArgumentRoundTrip | client.go:90-187 | a REG, JOIN, LEAVE or FILES line gives back its one argument as username or recipient |
| Wire.MsgLineRoundTrip | client.go:135-167 | a MSG line with a recipient, the decimal length, the delimiter and a body gives a MSG command with exactly that body, trailing white space included |
| Wire.SendLineRoundTrip | client.go:189-206 | a SEND line gives back its channel, file name and path |
| Wire.GetLineRoundTrip | client.go:245-272 | a GET line gives a GET command to its channel with the file name as body |
| Wire.BareRoundTrip | client.go:81-84 | a line holding just CHNS or USRS gives the bare command of that kind |
| Wire.RenderIsOneLine | client.go:34 | a rendered request holds exactly one newline, and it is the last byte, so a read that stops at the first newline takes in the whole request and nothing of what follows |
| Quirks.LowerRegArgs | client.go:50 | the upper-cased keyword is not found at the start of a lower-case "reg" line, so the arguments keep the keyword |
| Quirks.LowerCaseKeywordIsNotStripped | client.go:49-56 | "reg @name" is recognised as REG but rejected with the username-sigil error |
| Quirks.BlankRegistrationPanics | client.go:90-97 | REG followed only by white space is recognised, has empty arguments, and makes reg panic |
| Quirks.MissingDelimiterAccepted | client.go:146-157 | a MSG line with no delimiter but enough trailing white space after the length is accepted, with a body cut from that white space and the newline |
| Hubs.Register | hub.go:39-47 | a taken name leaves the hub unchanged, clears the client's username and replies "ERR username taken"; a new name binds exactly that name to the connection and replies "OK"; channels never change and existing bindings stay |
| Hubs.Deregister | hub.go:49-56 | an unknown name changes nothing; a known name is removed from the clients map, the connection leaves every channel while every other member stays, and every channel keeps its name and files |
| Hubs.JoinChannel | hub.go:58-69 | an unregistered name changes nothing; otherwise the channel names gain the joined channel, an existing channel gains only the joiner, a missing one is created with the joiner as its only member, and other channels and the clients map stay |
| Hubs.Step | hub.go:13-37 | registrations and deregistrations go to register and deregister; a JOIN command joins the sender's username; every other command leaves the hub and writes nothing; LEAVE is handed to leaveChannel with the sender and the channel, MSG to message with the sender, the recipient and the body, USRS to listUsers and CHNS to listChannels with the sender |
| Hubs.WithoutMember | hub.go:52-54 | every channel keeps its name and files and loses just the given connection |
| HubLaws.StepKeepsValid | hub.go:13-37 | if channels are stored under their names and all members are bound connections, every step keeps this (apart from the handlers Step hands on), provided a departing client owns its name |
| HubLaws.RegisterKeepsValid | hub.go:39-47 | register keeps the hub invariant |
| HubLaws.DeregisterKeepsValid | hub.go:49-56 | deregistering the owner of a name keeps the hub invariant |
| HubLaws.JoinKeepsValid | hub.go:58-69 | joining keeps the hub invariant |
| HubLaws.DeregisterByNameAlone | hub.go:50-54 | a client carrying another connection's name removes that binding while the other connection stays in its channels, which breaks the invariant |
| HubLaws.DeregisterUndoesRegister | hub.go:39-56 | registering a new name for a connection in no channel and deregistering it restores the hub |
| HubLaws.JoinIdempotent | hub.go:58-69 | joining twice is joining once |
| HubLaws.JoinTwiceSharesChannel | hub.go:63-66 | two registered users joining a missing channel create one channel whose members are exactly their connections |
| HubLaws.RenamingLeavesStaleName | hub.go:39-56 | a connection that registers twice keeps its first name bound after it leaves, and a later registration of that name by another connection is refused |
| HubLaws.RefusedRenameLeavesStaleName | hub.go:40-42 | after a refused second registration the connection's departure removes nothing, so its first name stays bound |
| HubLaws.DefaultBranchIsInert | hub.go:32-33 | REG, FILES, SEND and GET commands change nothing, write nothing and hand nothing on |
| HubLaws.StepKeepsChannels | hub.go:13-37 | no event removes a channel, apart from the handlers Step hands on |
| HubLaws.ChecksAfterJoin | hubChecks.go:3-21 | after a join the channel exists exactly when it did or the user is registered, a registered joiner is a member, no channel's files change, and the same users are registered |
| Channels.NewChannel | channel.go:9-15 | a new channel has the given name, no members and no files |
| Channels.BroadcastLineFields | channel.go:18-22 | the broadcast line is the sender label, '[', the channel name, "]: ", the message and a newline, in that order and at those offsets |
| Channels.Broadcast | channel.go:17-27 | one write per member: every member gets the broadcast line exactly once, and nobody else gets anything |
| FileStore.NewFile | files.go:10-15 | a new file keeps the name and the body as given |
| FileStore.ReplaceReturnsEscapes | files.go:17-22 | splitting at newlines and joining with "//" replaces each newline by "//" and keeps every other byte in order |
| FileStore.ReplaceReturnsShape | files.go:17-22 | the output ends with its only newline, is one byte longer per newline plus one, and a body without newlines just gains a newline |
| FileStore.EscapeConcat | files.go:18-19 | the escaping works byte by byte: escaping a concatenation concatenates the escapings |
| FileStore.ReplaceReturnsRoundTrip | files.go:17-22 | turning every "//" of the output (less its newline) back into a newline recovers the body exactly when no slash in the body is followed by a slash or a newline |
| FileStore.SlashBeforeNewlineIsMisread | files.go:18-20 | a body without "//" but with a slash before a newline is escaped to "a///b" and read back wrongly |
| Replies.UnframeCommunicate | hubCommunications.go:9-12 | a framed reply is the marker, the response verbatim and a newline, so reading it back gives the response |
| Replies.CommunicateInjective | hubCommunications.go:11 | different responses are written as different bytes |
| Replies.CommUsernameTaken | hubCommunications.go:14-17 | the taken-name reply reads back as "REG Denied: <name> was already taken" plus a newline, holds the name at its place, and ends in two newlines |
| Parser.ErrorReply | client.go:288-290 | err: the error text between "ERR " and a newline; its layout is stated by Parser.ErrorReplyShape |
| Parser.Reg | client.go:90-103 | reg; its accepted and rejected names are stated by Parser.RegChecks |
| Parser.Join | client.go:105-118 | join; stated by Parser.JoinChecks |
| Parser.Leave | client.go:120-133 | leave; stated by Parser.LeaveChecks |
| Parser.MsgFrame | client.go:135-154 | msg's checks up to the length; stated by Parser.MsgFrameChecks and Parser.MsgRecipientChecks |
| Parser.LengthFrame | client.go:146-154 | msg's length checks; stated by Parser.LengthFrameChecks |
| Parser.MsgCommand | client.go:156-166 | the body slice and the MSG command of msg; stated by Parser.MsgCommandChecks |
| Parser.Files | client.go:169-187 | files; stated by Parser.FilesChecks |
| Parser.Send | client.go:189-204 | send's argument checks; stated by Parser.SendChecks |
| Parser.SendFile | client.go:199-206 | send's file-name check and path; stated by Parser.SendChecks |
| Parser.Get | client.go:245-272 | get; stated by Parser.GetChecks |
| Parser.Dispatch | client.go:52-84 | handle's switch for a recognised keyword; stated by Parser.DispatchShape and Parser.HandleKnown |
| Parser.Handle | client.go:48-88 | handle; stated by Parser.HandleShape, Parser.HandleKnown and Wire.HandleRender |
| Hubs.UserRegistered | hubChecks.go:3-6 | a user is registered exactly when its name is a key of the clients map |
| Hubs.ChannelExists | hubChecks.go:8-11 | a channel exists exactly when its name is a key of the channels map |
| Hubs.UserIsMember | hubChecks.go:13-16 | a connection is a member exactly when it is in the channel's member set |
| Hubs.FileExists | hubChecks.go:18-21 | a file exists exactly when its name is a key of the channel's files |
| Channels.BroadcastLine | channel.go:18-22 | the line broadcast writes; its layout is stated by Channels.BroadcastLineFields |
| FileStore.ReplaceReturns | files.go:17-22 | replaceReturns; stated by FileStore.ReplaceReturnsEscapes, ReplaceReturnsShape and ReplaceReturnsRoundTrip |
| Replies.Communicate | hubCommunications.go:9-12 | communicate's framing; stated by Replies.UnframeCommunicate and Replies.CommunicateInjective |
| Delivery.MsgLineReachesMessage | hub.go:26-27 | handling the line of a well-formed MSG request submits a command that makes the hub call message with the sender, the recipient and the body exactly as written, and change nothing else |
| Delivery.JoinLineJoins | hub.go:22-23 | handling the line of a well-formed JOIN request submits a command that makes the sender's username join the channel |
| Delivery.LeaveLineReachesLeave | hub.go:24-25 | handling the line of a well-formed LEAVE request submits a command that makes the hub call leaveChannel with the sender and the channel |

## Left out

- main.go: the TCP listener and the goroutine per connection are transport only.
- `client.read` and `newClient` (client.go:23-46): reading from the socket up to a newline is input, and a line is a parameter of `Parser.Handle`. `Wire.RenderIsOneLine` states only that a rendered request ends at its one newline.
- The reader of client.go:34 is created anew for every line, so bytes it buffered past the first newline are lost, including a second request that arrived in the same read. The model has no buffer and does not show this loss.
- A MSG body that holds a newline is cut at that newline by the reader, and `msg` then panics (client.go:157) whenever the declared length runs past the end of the line. The model only handles single lines. `Wire.WellFormed` admits no newline in a body, and on the cut line `MsgDefined` is false exactly when the declared length runs past its end.
- The file system part of `send` (client.go:206-233): the `os.Stat` and `os.Open` errors, the regular-file check and the read loop. The contents read are a parameter of `Parser.SendCommand`.
- Parser.SendCommand: requires the file name to hold no '%', because the source passes it to `fmt.Sprintf` as a format string, whose expansion of verbs is not modelled.
- Go channel sends and `conn.Write` calls are not concurrency here. They are returned as `Outcome` values, `Write` records and `Transition`s.
- The goroutine and `select` of `hub.run`: one event is one call of `Hubs.Step`. The order in which events arrive is not modelled.
- The bodies of `leaveChannel`, `message`, `listUsers`, `listChannels` and `newHub` are not part of this model. `Hubs.Step` records the call it would make as a `HandlerCall`.
- `log.Print` in `communicate` is a logging side effect.
- checks.go repeats two predicates of hubChecks.go; they are modelled once.
- The `fmt.Errorf` value built in the default branch of `run` is discarded by the source, so it has no effect in the model.
- Go's runtime panics (an empty name indexed in `reg`, a body slice out of range in `msg`) are the `Defined`, `MsgDefined` and `Fits` preconditions. They are not an error outcome.
- Bytes.TrimSpaceStrips: white space and case are ASCII only. `bytes.TrimSpace` and `bytes.ToUpper` also handle multi-byte UTF-8 characters, which are not modelled.
- Wire.HandleRender: covers the requests that `Wire.WellFormed` admits (trimmed arguments with the right sigils, no newline inside, a MSG body of at most the int64 maximum in length). Other lines are covered by `Parser.HandleShape` and the `Quirks` lemmas.
- Map iteration order in `broadcast` is unspecified, so `Channels.Broadcast` promises every member exactly once in some order, not a particular order.

=== FILE: bytes.dfy ===
/** The routines of Go's `bytes` and `strconv` packages that the command
    parser relies on. A Go byte slice is a `string` whose characters stand
    for bytes; white space and case are the ASCII ones. */
module Bytes {
  import opened Results

  /** The ASCII white space that bytes.TrimSpace removes. */
  predicate IsSpace(c: char) {
    c == ' ' || c == '\t' || c == '\n' || c == '\r' || c == '\U{000B}' || c == '\U{000C}'
  }

  predicate AllSpace(s: string) {
    forall i :: 0 <= i < |s| ==> IsSpace(s[i])
  }

  /** Number of white-space bytes at the start of `s`. */
  function LeftSpaces(s: string): (n: nat)
    ensures n <= |s|
    ensures n == |s| || !IsSpace(s[n])
  {
    if |s| > 0 && IsSpace(s[0]) then 1 + LeftSpaces(s[1..]) else 0
  }

  /** Number of white-space bytes at the end of `s`. */
  function RightSpaces(s: string): (n: nat)
    ensures n <= |s|
    ensures n == |s| || !IsSpace(s[|s| - n - 1])
  {
    if |s| > 0 && IsSpace(s[|s| - 1]) then 1 + RightSpaces(s[..|s| - 1]) else 0
  }

  function TrimLeft(s: string): string {
    s[LeftSpaces(s)..]
  }

  function TrimRight(s: string): string {
    s[..|s| - RightSpaces(s)]
  }

  /** bytes.TrimSpace: the infix of `s` left after removing white space at
      both ends; it neither starts nor ends with white space. */
  function TrimSpace(s: string): (t: string)
    ensures LeftSpaces(s) + |t| <= |s|
    ensures t == s[LeftSpaces(s)..LeftSpaces(s) + |t|]
    ensures |t| > 0 ==> !IsSpace(t[0]) && !IsSpace(t[|t| - 1])
  {
    TrimRight(TrimLeft(s))
  }

  /** The bytes LeftSpaces counts are white space. */
  lemma {:induction false} LeftSpacesAreSpace(s: string)
    ensures AllSpace(s[..LeftSpaces(s)])
  {
    if |s| > 0 && IsSpace(s[0]) {
      LeftSpacesAreSpace(s[1..]);
      var n := LeftSpaces(s);
      forall i | 1 <= i < n ensures IsSpace(s[..n][i]) {
        assert s[..n][i] == s[1..][..n - 1][i - 1];
      }
    }
  }

  /** The bytes RightSpaces counts are white space. */
  lemma {:induction false} RightSpacesAreSpace(s: string)
    ensures AllSpace(s[|s| - RightSpaces(s)..])
  {
    if |s| > 0 && IsSpace(s[|s| - 1]) {
      var s' := s[..|s| - 1];
      RightSpacesAreSpace(s');
      var n := RightSpaces(s);
      var t := s[|s| - n..];
      forall i | 0 <= i < n - 1 ensures IsSpace(t[i]) {
        assert t[i] == s'[|s'| - (n - 1)..][i];
      }
    }
  }

  /** bytes.TrimSpace removes exactly the white space at both ends: the
      result is the infix of `s` that white space alone surrounds, and it
      neither starts nor ends with white space. */
  lemma TrimSpaceStrips(s: string)
    ensures var t := TrimSpace(s);
      && LeftSpaces(s) + |t| <= |s|
      && t == s[LeftSpaces(s)..LeftSpaces(s) + |t|]
      && AllSpace(s[..LeftSpaces(s)])
      && AllSpace(s[LeftSpaces(s) + |t|..])
      && (|t| > 0 ==> !IsSpace(t[0]) && !IsSpace(t[|t| - 1]))
  {
    LeftSpacesAreSpace(s);
    TrimSpaceTail(s);
  }

  /** What follows the trimmed bytes in `s` is the white space TrimRight
      removed. */
  lemma TrimSpaceTail(s: string)
    ensures LeftSpaces(s) + |TrimSpace(s)| <= |s|
    ensures AllSpace(s[LeftSpaces(s) + |TrimSpace(s)|..])
  {
    var l := TrimLeft(s);
    var k := |l| - RightSpaces(l);
    RightSpacesAreSpace(l);
    assert s[LeftSpaces(s) + |TrimSpace(s)|..] == l[k..];
  }

  /** The trimmed slice starts the slice with only its left trimmed. */
  lemma TrimSpaceStartsTrimLeft(s: string)
    ensures |TrimSpace(s)| <= |TrimLeft(s)|
    ensures TrimLeft(s)[..|TrimSpace(s)|] == TrimSpace(s)
  {
  }

  /** Trimming an already trimmed slice changes nothing. */
  lemma TrimSpaceIdempotent(s: string)
    ensures LeftSpaces(TrimSpace(s)) == 0
    ensures TrimSpace(TrimSpace(s)) == TrimSpace(s)
  {
  }

  /** A slice without white space at either end is its own trim. */
  lemma TrimSpaceOfTrimmed(s: string)
    requires |s| > 0 ==> !IsSpace(s[0]) && !IsSpace(s[|s| - 1])
    ensures LeftSpaces(s) == 0 && TrimSpace(s) == s
  {
  }

  /** Leading white space followed by a non-space byte is counted exactly. */
  lemma {:induction false} LeftSpacesConcat(pre: string, s: string)
    requires AllSpace(pre)
    requires |s| == 0 || !IsSpace(s[0])
    ensures LeftSpaces(pre + s) == |pre|
  {
    if |pre| > 0 {
      assert (pre + s)[1..] == pre[1..] + s;
      LeftSpacesConcat(pre[1..], s);
    } else {
      assert pre + s == s;
    }
  }

  /** White space followed by white space is white space. */
  lemma AllSpaceAppend(a: string, b: string)
    requires AllSpace(a) && AllSpace(b)
    ensures AllSpace(a + b)
  {
    forall i | |a| <= i < |a + b| ensures IsSpace((a + b)[i]) {
      assert (a + b)[i] == b[i - |a|];
    }
  }

  /** Nothing is left of white space once it is trimmed. */
  lemma TrimSpaceOfSpace(s: string)
    requires AllSpace(s)
    ensures TrimSpace(s) == []
  {
    LeftSpacesConcat(s, []);
    assert s + [] == s;
  }

  /** Trailing white space after a non-space byte is counted exactly. */
  lemma {:induction false} RightSpacesConcat(s: string, post: string)
    requires AllSpace(post)
    requires |s| == 0 || !IsSpace(s[|s| - 1])
    ensures RightSpaces(s + post) == |post|
  {
    if |post| > 0 {
      assert (s + post)[..|s + post| - 1] == s + post[..|post| - 1];
      RightSpacesConcat(s, post[..|post| - 1]);
    } else {
      assert s + post == s;
    }
  }

  /** The trailing white space of `x + y` lies within `y` when `x` ends in a
      non-space byte. */
  lemma {:induction false} RightSpacesAppend(x: string, y: string)
    requires |x| > 0 && !IsSpace(x[|x| - 1])
    ensures RightSpaces(x + y) == RightSpaces(y)
  {
    if |y| > 0 {
      assert (x + y)[..|x + y| - 1] == x + y[..|y| - 1];
      RightSpacesAppend(x, y[..|y| - 1]);
    } else {
      assert x + y == x;
    }
  }

  /** Trimming a word surrounded by white space yields the word. */
  lemma TrimSpaceAround(pre: string, x: string, post: string)
    requires AllSpace(pre) && AllSpace(post)
    requires |x| > 0 && !IsSpace(x[0]) && !IsSpace(x[|x| - 1])
    ensures LeftSpaces(pre + x + post) == |pre|
    ensures TrimSpace(pre + x + post) == x
  {
    assert pre + x + post == pre + (x + post);
    LeftSpacesConcat(pre, x + post);
    RightSpacesConcat(x, post);
    assert TrimLeft(pre + x + post) == x + post;
  }

  /** Trimming `" " + x + y`, where `x` has no white space at its ends,
      keeps all of `x` and trims only the tail of `y`. */
  lemma TrimSpaceSpaced(x: string, y: string)
    requires |x| > 0 && !IsSpace(x[0]) && !IsSpace(x[|x| - 1])
    ensures LeftSpaces(" " + x + y) == 1
    ensures TrimSpace(" " + x + y) == x + TrimRight(y)
  {
    assert " " + x + y == " " + (x + y);
    LeftSpacesConcat(" ", x + y);
    assert TrimLeft(" " + x + y) == x + y;
    RightSpacesAppend(x, y);
    assert (x + y)[..|x + y| - RightSpaces(y)] == x + y[..|y| - RightSpaces(y)];
  }

  /** Trimming the right of `x + y`, where `x` ends in a non-space byte,
      trims only `y`. */
  lemma TrimRightAppend(x: string, y: string)
    requires |x| > 0 && !IsSpace(x[|x| - 1])
    ensures TrimRight(x + y) == x + TrimRight(y)
  {
    RightSpacesAppend(x, y);
    assert (x + y)[..|x + y| - RightSpaces(y)] == x + y[..|y| - RightSpaces(y)];
  }

  lemma TrimRightIdempotent(y: string)
    ensures RightSpaces(TrimRight(y)) == 0
    ensures TrimRight(TrimRight(y)) == TrimRight(y)
  {
  }

  /** ASCII upper-casing of one byte. */
  function UpperChar(c: char): char {
    if 'a' <= c <= 'z' then (c as int - 32) as char else c
  }

  /** bytes.ToUpper restricted to ASCII input. */
  function ToUpper(s: string): (u: string)
    ensures |u| == |s|
    ensures forall i :: 0 <= i < |s| ==> u[i] == UpperChar(s[i])
  {
    seq(|s|, i requires 0 <= i < |s| => UpperChar(s[i]))
  }

  predicate IsUpperWord(s: string) {
    |s| > 0 && forall i :: 0 <= i < |s| ==> 'A' <= s[i] <= 'Z'
  }

  lemma ToUpperOfUpperWord(s: string)
    requires IsUpperWord(s)
    ensures ToUpper(s) == s
  {
  }

  /** bytes.HasPrefix. */
  predicate HasPrefix(s: string, p: string) {
    |p| <= |s| && s[..|p|] == p
  }

  /** How many bytes bytes.TrimPrefix removes. */
  function PrefixLen(s: string, p: string): (n: nat)
    ensures n <= |s|
  {
    if HasPrefix(s, p) then |p| else 0
  }

  /** A prefix of a prefix is a prefix. */
  lemma PrefixTransitive(a: string, b: string, c: string)
    requires HasPrefix(a, b) && HasPrefix(b, c)
    ensures HasPrefix(a, c)
  {
    assert a[..|c|] == b[..|c|];
  }

  /** Dropping the same bytes from a slice and from its prefix keeps the
      prefix. */
  lemma PrefixDrop(x: string, y: string, i: nat)
    requires HasPrefix(x, y) && i <= |y|
    ensures HasPrefix(x[i..], y[i..])
  {
    assert x[i..][..|y| - i] == x[..|y|][i..];
  }

  /** A prefix found at offset `n` of `cap`, less its first `m` bytes, is
      found at offset `n + m`. */
  lemma CapDrop(cap: string, n: nat, a: string, m: nat)
    requires n <= |cap| && HasPrefix(cap[n..], a) && m <= |a|
    ensures n + m <= |cap| && HasPrefix(cap[n + m..], a[m..])
  {
    PrefixDrop(cap[n..], a, m);
    assert cap[n..][m..] == cap[n + m..];
  }

  /** A prefix of a slice of `buf` is found at the slice's start in `buf`. */
  lemma PrefixOfSlice(buf: string, lo: nat, hi: nat, p: string)
    requires lo <= hi <= |buf|
    requires HasPrefix(buf[lo..hi], p)
    ensures lo + |p| <= hi && buf[lo..lo + |p|] == p
  {
    assert buf[lo..lo + |p|] == buf[lo..hi][..|p|];
  }

  /** bytes.TrimPrefix: `s` without the leading `p`, or `s` unchanged when
      it does not start with `p`. */
  function TrimPrefix(s: string, p: string): (t: string)
    ensures HasPrefix(s, p) ==> s == p + t
    ensures !HasPrefix(s, p) ==> t == s
  {
    s[PrefixLen(s, p)..]
  }

  /** bytes.Split(s, sep)[0]: the bytes of `s` before the first occurrence of
      the non-empty separator, or all of `s` when it does not occur. */
  function FirstPiece(s: string, sep: string): (p: string)
    requires |sep| > 0
    ensures HasPrefix(s, p)
    ensures |p| == |s| || HasPrefix(s[|p|..], sep)
    decreases |s|
  {
    if HasPrefix(s, sep) then []
    else if |s| == 0 then []
    else
      var rest := FirstPiece(s[1..], sep);
      assert s[1..][|rest|..] == s[1 + |rest|..];
      [s[0]] + rest
  }

  /** The first piece holds no byte at which the separator starts, so it
      ends at the first occurrence. */
  lemma {:induction false} FirstPieceEarliest(s: string, sep: string)
    requires |sep| > 0
    ensures forall i :: 0 <= i < |FirstPiece(s, sep)| ==> !HasPrefix(s[i..], sep)
    decreases |s|
  {
    if !HasPrefix(s, sep) && |s| > 0 {
      FirstPieceEarliest(s[1..], sep);
      forall i | 1 <= i < |FirstPiece(s, sep)|
        ensures !HasPrefix(s[i..], sep)
      {
        assert s[i..] == s[1..][i - 1..];
      }
    }
  }

  /** The first piece of `a + sep + b` is `a` when `a` cannot hold the start
      of a separator. */
  lemma {:induction false} FirstPieceBefore(a: string, sep: string, b: string)
    requires |sep| > 0 && sep[0] !in a
    ensures FirstPiece(a + sep + b, sep) == a
  {
    if |a| == 0 {
      assert a + sep + b == sep + b;
    } else {
      assert (a + sep + b)[1..] == a[1..] + sep + b;
      FirstPieceBefore(a[1..], sep, b);
    }
  }

  /** Without the separator's first byte, the first piece is everything. */
  lemma {:induction false} FirstPieceWhole(a: string, sep: string)
    requires |sep| > 0 && sep[0] !in a
    ensures FirstPiece(a, sep) == a
  {
    if |a| > 0 {
      FirstPieceWhole(a[1..], sep);
    }
  }

  /** bytes.Split(s, " ")[0]: the first space-separated field. */
  function FirstField(s: string): (f: string)
    ensures HasPrefix(s, f)
    ensures ' ' !in f
    ensures |f| == |s| || s[|f|] == ' '
  {
    var f := FirstPiece(s, " ");
    FirstPieceEarliest(s, " ");
    assert forall i :: 0 <= i < |f| ==> s[i..][..1] == [f[i]];
    f
  }

  predicate IsDigit(c: char) {
    '0' <= c <= '9'
  }

  predicate AllDigits(s: string) {
    forall i :: 0 <= i < |s| ==> IsDigit(s[i])
  }

  /** The value of a string of decimal digits. */
  function Decimal(ds: string): nat
    requires AllDigits(ds)
  {
    if |ds| == 0 then 0 else Decimal(ds[..|ds| - 1]) * 10 + (ds[|ds| - 1] as int - '0' as int)
  }

  const MinInt: int := -0x8000_0000_0000_0000
  const MaxInt: int := 0x7FFF_FFFF_FFFF_FFFF

  /** strconv.Atoi on a 64-bit platform: an optional sign and at least one
      decimal digit whose value fits in an int64; anything else is an error. */
  function Atoi(s: string): (r: Option<int>)
    ensures r.Some? ==> MinInt <= r.value <= MaxInt
    ensures r.Some? ==> |s| > 0 && (IsDigit(s[0]) || s[0] == '+' || s[0] == '-')
    ensures r.Some? && r.value < 0 ==> s[0] == '-'
  {
    var digits := if |s| > 0 && (s[0] == '+' || s[0] == '-') then s[1..] else s;
    if |digits| == 0 || !AllDigits(digits) then None
    else
      var v: int := if s[0] == '-' then 0 - (Decimal(digits) as int) else Decimal(digits);
      if MinInt <= v <= MaxInt then Some(v) else None
  }

  /** strconv.Itoa for natural numbers: the shortest decimal rendering. */
  function Itoa(n: nat): (s: string)
    ensures |s| > 0 && AllDigits(s)
    ensures Decimal(s) == n
  {
    var d := ['0' + (n % 10) as char];
    if n < 10 then d
    else
      var s := Itoa(n / 10) + d;
      assert s[..|s| - 1] == Itoa(n / 10);
      s
  }

  /** Parsing a rendered length gives the length back. */
  lemma AtoiItoa(n: nat)
    requires n <= MaxInt
    ensures Atoi(Itoa(n)) == Some(n)
  {
  }
}

=== FILE: channel.dfy ===
/** A channel: a named set of member connections with a file store, and the
    broadcast that writes one line to every member (channel.go). */
module Channels {
  import opened Clients
  import opened FileStore

  datatype Channel = Channel(name: string, members: set<ConnId>, files: map<string, File>)

  /** newChannel: the given name, no members and no files. */
  function NewChannel(name: string): (ch: Channel)
    ensures ch.name == name && ch.members == {} && ch.files == map[]
  {
    Channel(name, {}, map[])
  }

  /** The line a broadcast writes: sender label, channel name in brackets,
      a colon and space, the message and a newline. */
  function BroadcastLine(s: string, name: string, m: string): string {
    s + "[" + name + "]: " + m + "\n"
  }

  /** The broadcast line can be cut back into its parts: the sender label,
      the bracketed channel name and the message, in that order. */
  lemma BroadcastLineFields(s: string, name: string, m: string)
    ensures var line := BroadcastLine(s, name, m);
      && |line| == |s| + |name| + |m| + 5
      && line[..|s|] == s
      && line[|s|] == '['
      && line[|s| + 1..|s| + 1 + |name|] == name
      && line[|s| + 1 + |name|..|s| + 4 + |name|] == "]: "
      && line[|s| + 4 + |name|..|line| - 1] == m
      && line[|line| - 1] == '\n'
  {
  }

  /** broadcast: one write of the broadcast line to each member, in the
      unspecified order of Go's map iteration. Every member gets the line
      exactly once and nobody else gets anything; the channel itself is a
      value and stays as it was. */
  method Broadcast(ch: Channel, s: string, m: string) returns (writes: seq<Write>)
    ensures |writes| == |ch.members|
    ensures forall i :: 0 <= i < |writes| ==>
      writes[i].conn in ch.members && writes[i].data == BroadcastLine(s, ch.name, m)
    ensures forall i, j :: 0 <= i < j < |writes| ==> writes[i].conn != writes[j].conn
    ensures forall cl :: cl in ch.members ==> exists i :: 0 <= i < |writes| && writes[i].conn == cl
  {
    var msg := BroadcastLine(s, ch.name, m);
    var pending := ch.members;
    writes := [];
    while pending != {}
      invariant pending <= ch.members
      invariant |writes| + |pending| == |ch.members|
      invariant forall i :: 0 <= i < |writes| ==>
        writes[i].conn in ch.members - pending && writes[i].data == msg
      invariant forall i, j :: 0 <= i < j < |writes| ==> writes[i].conn != writes[j].conn
      invariant forall cl :: cl in ch.members && cl !in pending ==> exists i :: 0 <= i < |writes| && writes[i].conn == cl
      decreases |pending|
    {
      var cl :| cl in pending;
      var before := writes;
      writes := writes + [Write(cl, msg)];
      pending := pending - {cl};
      forall c | c in ch.members && c !in pending
        ensures exists i :: 0 <= i < |writes| && writes[i].conn == c
      {
        if c == cl {
          assert writes[|writes| - 1].conn == c;
        } else {
          var i :| 0 <= i < |before| && before[i].conn == c;
          assert writes[i].conn == c;
        }
      }
    }
  }
}

=== FILE: clients.dfy ===
/** A client is one accepted connection together with the display name it
    has asked for (client.go). The hub's input queues, which the Go record
    also holds, become the events of the hub model. */
module Clients {

  /** Identity of a connection; it stands for both the `*client` reference and
      its `net.Conn`, since each client owns exactly one connection. */
  type ConnId = nat

  /** `username` is empty until a REG line sets it. */
  datatype Client = Client(conn: ConnId, username: string)

  /** One `conn.Write` call: the bytes written to one connection. */
  datatype Write = Write(conn: ConnId, data: string)
}

=== FILE: commands.dfy ===
/** The command kinds and the command record passed from a connection's
    reader to the hub (command.go). */
module Commands {
  import opened Results
  import opened Clients

  /** The nine command kinds, in declaration order. */
  datatype Id = REG | JOIN | LEAVE | MSG | CHNS | USRS | FILES | SEND | GET

  /** The value `iota` gives each kind. */
  function Code(id: Id): (n: nat)
    ensures n < 9
  {
    match id
    case REG => 0
    case JOIN => 1
    case LEAVE => 2
    case MSG => 3
    case CHNS => 4
    case USRS => 5
    case FILES => 6
    case SEND => 7
    case GET => 8
  }

  /** The kinds listed in declaration order. */
  const Declared: seq<Id> := [REG, JOIN, LEAVE, MSG, CHNS, USRS, FILES, SEND, GET]

  /** The kind with a given code, if any. */
  function FromCode(n: nat): (r: Option<Id>)
    ensures r.Some? <==> n < 9
    ensures r.Some? ==> Code(r.value) == n
  {
    if n < |Declared| then Some(Declared[n]) else None
  }

  /** Codes run from 0 to 8 in declaration order, so every kind has its
      position in the declaration as its code. */
  lemma CodesFollowDeclaration()
    ensures |Declared| == 9
    ensures forall i :: 0 <= i < |Declared| ==> Code(Declared[i]) == i
    ensures forall id: Id :: id in Declared
  {
    forall id: Id ensures id in Declared {
      assert Declared[Code(id)] == id;
    }
  }

  /** Decoding a code gives back the kind, so codes are pairwise distinct. */
  lemma CodeRoundTrip(id: Id)
    ensures FromCode(Code(id)) == Some(id)
  {
  }

  lemma CodesDistinct(a: Id, b: Id)
    ensures a != b ==> Code(a) != Code(b)
  {
    CodeRoundTrip(a);
    CodeRoundTrip(b);
  }

  /** A parsed request. Fields the Go literal leaves out hold their zero
      value: the empty string or a nil byte slice, both `[]` here. */
  datatype Command = Command(id: Id, recipient: string, sender: Client, header: string, body: string)

  /** A command literal that sets only the sender and the kind, as the CHNS
      and USRS branches of the parser build it. */
  function Bare(sender: Client, id: Id): (c: Command)
    ensures c.id == id && c.sender == sender
    ensures c.recipient == [] && c.header == [] && c.body == []
  {
    Command(id, [], sender, [], [])
  }
}

=== FILE: delivery.dfy ===
/** From a client's line to the hub: what a well-formed request, once
    parsed, makes the hub do. */
module Delivery {
  import opened Results
  import opened Clients
  import opened Hubs
  import Parser
  import Wire

  /** A rendered MSG line reaches the hub's message handler with the
      sender, the recipient and the body exactly as the client wrote them,
      and changes nothing else. */
  lemma MsgLineReachesMessage(h: Hub, c: Client, r: string, b: string)
    requires Wire.WellFormed(Wire.MsgReq(r, b))
    ensures Parser.Defined(Wire.Render(Wire.MsgReq(r, b)))
    ensures var o := Parser.Handle(c, Wire.Render(Wire.MsgReq(r, b)));
      && o.Submit?
      && Step(h, CommandEvent(o.cmd)) == Transition(h, [], None, Some(Message(c, r, b)))
  {
    Wire.HandleRender(c, Wire.MsgReq(r, b));
  }

  /** A rendered JOIN line makes the sender's registered name join the
      channel. */
  lemma JoinLineJoins(h: Hub, c: Client, ch: string)
    requires Wire.WellFormed(Wire.JoinReq(ch))
    ensures Parser.Defined(Wire.Render(Wire.JoinReq(ch)))
    ensures var o := Parser.Handle(c, Wire.Render(Wire.JoinReq(ch)));
      && o.Submit?
      && Step(h, CommandEvent(o.cmd)) == Transition(JoinChannel(h, c.username, ch), [], None, None)
  {
    Wire.HandleRender(c, Wire.JoinReq(ch));
  }

  /** A rendered LEAVE line reaches the hub's leave handler with the sender
      and the channel. */
  lemma LeaveLineReachesLeave(h: Hub, c: Client, ch: string)
    requires Wire.WellFormed(Wire.LeaveReq(ch))
    ensures Parser.Defined(Wire.Render(Wire.LeaveReq(ch)))
    ensures var o := Parser.Handle(c, Wire.Render(Wire.LeaveReq(ch)));
      && o.Submit?
      && Step(h, CommandEvent(o.cmd)) == Transition(h, [], None, Some(LeaveChannel(c, ch)))
  {
    Wire.HandleRender(c, Wire.LeaveReq(ch));
  }
}

=== FILE: filestore.dfy ===
/** Files stored in a channel, and the newline escaping used to send a file
    body on one wire line (files.go). */
module FileStore {

  datatype File = File(filename: string, body: string)

  /** newFile keeps the name and the body as given. */
  function NewFile(filename: string, body: string): (f: File)
    ensures f.filename == filename && f.body == body
  {
    File(filename, body)
  }

  /** bytes.Split(s, "\n"): the pieces of `s` between newlines, always at
      least one. */
  function SplitLines(s: string): (parts: seq<string>)
    ensures |parts| >= 1
  {
    if |s| == 0 then [[]]
    else
      var rest := SplitLines(s[1..]);
      if s[0] == '\n' then [[]] + rest
      else [[s[0]] + rest[0]] + rest[1..]
  }

  /** bytes.Join(parts, glue). */
  function Join(parts: seq<string>, glue: string): string
    requires |parts| >= 1
  {
    if |parts| == 1 then parts[0] else parts[0] + glue + Join(parts[1..], glue)
  }

  /** replaceReturns: split the body at newlines, join the pieces with the
      two-byte sentinel "//" and end the result with one newline. */
  function ReplaceReturns(body: string): string {
    Join(SplitLines(body), "//") + "\n"
  }

  /** Reference definition of the escaping: every newline becomes "//" and
      every other byte is copied, in order. */
  function Escape(s: string): string {
    if |s| == 0 then []
    else (if s[0] == '\n' then "//" else [s[0]]) + Escape(s[1..])
  }

  function Count(s: string, c: char): nat {
    if |s| == 0 then 0 else (if s[0] == c then 1 else 0) + Count(s[1..], c)
  }

  /** bytes.ReplaceAll(s, "//", "\n"): the reading a receiver applies,
      scanning from the left and replacing non-overlapping sentinels. */
  function Unescape(s: string): string {
    if |s| >= 2 && s[0] == '/' && s[1] == '/' then "\n" + Unescape(s[2..])
    else if |s| == 0 then []
    else [s[0]] + Unescape(s[1..])
  }

  /** No slash is followed by a slash or a newline: exactly the bodies whose
      escaping can be read back. */
  predicate SentinelFree(s: string) {
    forall i :: 0 <= i < |s| - 1 ==> !(s[i] == '/' && (s[i + 1] == '/' || s[i + 1] == '\n'))
  }

  lemma {:induction false} JoinCons(c: char, parts: seq<string>, glue: string)
    requires |parts| >= 1
    ensures Join([[c] + parts[0]] + parts[1..], glue) == [c] + Join(parts, glue)
  {
    var q := [[c] + parts[0]] + parts[1..];
    if |parts| > 1 {
      assert q[1..] == parts[1..];
    }
  }

  /** Split-then-join computes the reference escaping. */
  lemma {:induction false} ReplaceReturnsEscapes(body: string)
    ensures Join(SplitLines(body), "//") == Escape(body)
    ensures ReplaceReturns(body) == Escape(body) + "\n"
  {
    if |body| > 0 {
      ReplaceReturnsEscapes(body[1..]);
      var rest := SplitLines(body[1..]);
      if body[0] == '\n' {
        assert ([[]] + rest)[1..] == rest;
      } else {
        JoinCons(body[0], rest, "//");
      }
    }
  }

  /** Escaping distributes over concatenation, so it acts byte by byte. */
  lemma {:induction false} EscapeConcat(a: string, b: string)
    ensures Escape(a + b) == Escape(a) + Escape(b)
  {
    if |a| > 0 {
      assert (a + b)[1..] == a[1..] + b;
      EscapeConcat(a[1..], b);
    } else {
      assert a + b == b;
    }
  }

  /** The escaping holds no newline and grows the body by one byte per
      newline. */
  lemma {:induction false} EscapeShape(s: string)
    ensures '\n' !in Escape(s)
    ensures |Escape(s)| == |s| + Count(s, '\n')
  {
    if |s| > 0 {
      EscapeShape(s[1..]);
    }
  }

  /** A body without newlines is left as it is. */
  lemma {:induction false} EscapeWithoutNewlines(s: string)
    requires '\n' !in s
    ensures Escape(s) == s
  {
    if |s| > 0 {
      EscapeWithoutNewlines(s[1..]);
    }
  }

  /** The output of replaceReturns ends with its only newline, is one byte
      longer than the body per newline plus one, and a body without newlines
      is sent with just a newline appended. */
  lemma ReplaceReturnsShape(body: string)
    ensures var out := ReplaceReturns(body);
      && |out| == |body| + Count(body, '\n') + 1
      && out[|out| - 1] == '\n'
      && '\n' !in out[..|out| - 1]
      && ('\n' !in body ==> out == body + "\n")
  {
    ReplaceReturnsEscapes(body);
    EscapeShape(body);
    var out := ReplaceReturns(body);
    assert out[..|out| - 1] == Escape(body);
    if '\n' !in body {
      EscapeWithoutNewlines(body);
    }
  }

  /** A body whose first two bytes are no slash followed by a slash or a
      newline is sentinel-free exactly when its tail is. */
  lemma SentinelFreeTail(s: string)
    requires |s| > 0 && !(s[0] == '/' && |s| > 1 && (s[1] == '/' || s[1] == '\n'))
    ensures SentinelFree(s) <==> SentinelFree(s[1..])
  {
    if SentinelFree(s[1..]) {
      forall i | 0 <= i < |s| - 1
        ensures !(s[i] == '/' && (s[i + 1] == '/' || s[i + 1] == '\n'))
      {
        if i > 0 {
          assert s[i] == s[1..][i - 1] && s[i + 1] == s[1..][i];
        }
      }
    }
  }

  /** Reading the escaping back recovers the body exactly when no slash in
      the body is followed by a slash or a newline. */
  lemma {:induction false} UnescapeEscape(s: string)
    ensures Unescape(Escape(s)) == s <==> SentinelFree(s)
  {
    if |s| == 0 {
    } else if s[0] == '\n' {
      UnescapeEscape(s[1..]);
      assert Escape(s) == "//" + Escape(s[1..]);
      assert Unescape(Escape(s)) == "\n" + Unescape(Escape(s[1..]));
      SentinelFreeTail(s);
      if Unescape(Escape(s[1..])) == s[1..] {
        assert s == "\n" + s[1..];
      }
    } else if s[0] == '/' && |s| > 1 && (s[1] == '/' || s[1] == '\n') {
      var tail := Escape(s[1..]);
      assert Escape(s) == "/" + tail;
      assert tail[0] == '/';
      assert Unescape(Escape(s))[0] == '\n';
    } else {
      UnescapeEscape(s[1..]);
      var tail := Escape(s[1..]);
      assert Escape(s) == [s[0]] + tail;
      assert s[0] == '/' ==> |tail| == 0 || tail[0] != '/' by {
        if s[0] == '/' && |s| > 1 {
          assert Escape(s[1..]) == [s[1]] + Escape(s[2..]);
        }
      }
      assert Unescape(Escape(s)) == [s[0]] + Unescape(tail);
      SentinelFreeTail(s);
      if Unescape(tail) == s[1..] {
        assert s == [s[0]] + s[1..];
      }
    }
  }

  /** Round trip of the file transfer encoding: the receiver strips the final
      newline and replaces every "//" by a newline, and gets the body back
      exactly when the body is sentinel-free. */
  lemma ReplaceReturnsRoundTrip(body: string)
    ensures var out := ReplaceReturns(body);
      Unescape(out[..|out| - 1]) == body <==> SentinelFree(body)
  {
    ReplaceReturnsEscapes(body);
    var out := ReplaceReturns(body);
    assert out[..|out| - 1] == Escape(body);
    UnescapeEscape(body);
  }

  /** Excluding "//" from the body is not enough: a slash before a newline
      is read back as a newline followed by a slash. */
  lemma SlashBeforeNewlineIsMisread()
    ensures var body := "a/\nb";
      && (forall i :: 0 <= i < |body| - 1 ==> !(body[i] == '/' && body[i + 1] == '/'))
      && ReplaceReturns(body) == "a///b\n"
      && Unescape("a///b") == "a\n/b"
  {
    ReplaceReturnsEscapes("a/\nb");
    assert Escape("\nb") == "//b";
    assert Escape("/\nb") == "///b";
    assert Escape("a/\nb") == "a///b";
    assert Unescape("/b") == "/b";
    assert Unescape("///b") == "\n/b";
  }
}

=== FILE: hub.dfy ===
/** The hub (hub.go, hubChecks.go): the map from usernames to connections,
    the map from channel names to channels, and the single-event transition
    that the hub's loop applies to whatever event it receives next. */
module Hubs {
  import opened Results
  import opened Clients
  import opened Commands
  import opened Channels

  /** A registered client is stored as its connection: the Go map holds a
      reference to the client, and a client owns exactly one connection. */
  datatype Hub = Hub(channels: map<string, Channel>, clients: map<string, ConnId>)

  /** userRegistered. */
  predicate UserRegistered(h: Hub, username: string) {
    username in h.clients
  }

  /** channelExists. */
  predicate ChannelExists(h: Hub, name: string) {
    name in h.channels
  }

  /** userIsMember. */
  predicate UserIsMember(ch: Channel, cl: ConnId) {
    cl in ch.members
  }

  /** fileExists. */
  predicate FileExists(ch: Channel, filename: string) {
    filename in ch.files
  }

  const OkReply: string := "OK\n"
  const TakenReply: string := "ERR username taken\n"

  /** What register leaves behind: the hub, the client (whose username is
      cleared when the name is taken) and the one reply written to it. */
  datatype Registration = Registration(hub: Hub, client: Client, reply: Write)

  /** register: a name that is already a key is refused and the client's
      username is cleared; a new name is bound to the client's connection.
      Either way one reply goes to the client and the channels stay. */
  function Register(h: Hub, c: Client): (r: Registration)
    ensures r.hub.channels == h.channels
    ensures r.reply.conn == c.conn
    ensures UserRegistered(r.hub, c.username)
    ensures c.username in h.clients <==> r.reply.data == TakenReply
    ensures c.username in h.clients ==> r.hub == h && r.client == c.(username := [])
    ensures c.username !in h.clients ==>
      && r.reply.data == OkReply
      && r.client == c
      && r.hub.clients.Keys == h.clients.Keys + {c.username}
      && r.hub.clients[c.username] == c.conn
    ensures forall u :: u in h.clients ==> u in r.hub.clients && r.hub.clients[u] == h.clients[u]
  {
    if c.username in h.clients then
      Registration(h, c.(username := []), Write(c.conn, TakenReply))
    else
      Registration(h.(clients := h.clients[c.username := c.conn]), c, Write(c.conn, OkReply))
  }

  /** Every channel with the connection taken out of its members. */
  function WithoutMember(channels: map<string, Channel>, cl: ConnId): (r: map<string, Channel>)
    ensures r.Keys == channels.Keys
    ensures forall name :: name in r ==>
      && r[name].name == channels[name].name
      && r[name].files == channels[name].files
      && r[name].members == channels[name].members - {cl}
  {
    map name | name in channels :: channels[name].(members := channels[name].members - {cl})
  }

  /** deregister: when the client's current username is a key, that key is
      removed and the connection leaves every channel; channels themselves
      are never removed. Otherwise nothing happens. The key is removed by
      name alone, whichever connection it is bound to. */
  function Deregister(h: Hub, c: Client): (r: Hub)
    ensures c.username !in h.clients ==> r == h
    ensures c.username in h.clients ==>
      && r.clients == h.clients - {c.username}
      && r.channels.Keys == h.channels.Keys
      && forall name :: name in r.channels ==> !UserIsMember(r.channels[name], c.conn)
    ensures forall name :: name in r.channels ==>
      && r.channels[name].name == h.channels[name].name
      && r.channels[name].files == h.channels[name].files
      && r.channels[name].members <= h.channels[name].members
      && (forall cl :: cl in h.channels[name].members && cl != c.conn ==> UserIsMember(r.channels[name], cl))
  {
    if c.username in h.clients then
      Hub(WithoutMember(h.channels, c.conn), h.clients - {c.username})
    else
      h
  }

  /** joinChannel: a registered name's connection joins the named channel,
      which is created, empty but for it, when missing. An unregistered
      name changes nothing. */
  function JoinChannel(h: Hub, username: string, name: string): (r: Hub)
    ensures r.clients == h.clients
    ensures !UserRegistered(h, username) ==> r == h
    ensures UserRegistered(h, username) ==>
      && r.channels.Keys == h.channels.Keys + {name}
      && UserIsMember(r.channels[name], h.clients[username])
      && (ChannelExists(h, name) ==>
            r.channels[name] == h.channels[name].(members := h.channels[name].members + {h.clients[username]}))
      && (!ChannelExists(h, name) ==>
            r.channels[name] == Channel(name, {h.clients[username]}, map[]))
      && forall other :: other in h.channels && other != name ==> r.channels[other] == h.channels[other]
  {
    if username in h.clients then
      var cl := h.clients[username];
      if name in h.channels then
        h.(channels := h.channels[name := h.channels[name].(members := h.channels[name].members + {cl})])
      else
        h.(channels := h.channels[name := NewChannel(name).(members := {cl})])
    else
      h
  }

  /** The hub's inputs: a client from the registration queue or the
      deregistration queue, or a command. */
  datatype Event =
    | RegistrationEvent(client: Client)
    | DeregistrationEvent(client: Client)
    | CommandEvent(cmd: Command)

  /** The handlers run dispatches to whose bodies are not part of this
      model; a step records the call instead of its effect. */
  datatype HandlerCall =
    | LeaveChannel(sender: Client, channel: string)
    | Message(sender: Client, recipient: string, body: string)
    | ListUsers(sender: Client)
    | ListChannels(sender: Client)

  /** One step of the hub: the new hub, the bytes written, the client as
      register leaves it, and the call handed to a handler not modelled. */
  datatype Transition = Transition(hub: Hub, writes: seq<Write>, client: Option<Client>, call: Option<HandlerCall>)

  /** The command kinds run handles itself or hands to a handler; the rest
      fall to its default branch. */
  const Dispatched: set<Id> := {JOIN, LEAVE, MSG, USRS, CHNS}

  /** run, for one event. A JOIN is applied with the sender's username (the
      source passes the sender where joinChannel expects its name). REG,
      FILES, SEND and GET commands reach the default branch, whose error
      value is discarded: nothing changes and nothing is written. */
  function Step(h: Hub, e: Event): (t: Transition)
    ensures e.RegistrationEvent? ==>
      var r := Register(h, e.client);
      t == Transition(r.hub, [r.reply], Some(r.client), None)
    ensures e.DeregistrationEvent? ==> t == Transition(Deregister(h, e.client), [], None, None)
    ensures e.CommandEvent? ==> t.writes == [] && t.client == None
    ensures e.CommandEvent? && e.cmd.id != JOIN ==> t.hub == h
    ensures e.CommandEvent? && e.cmd.id == JOIN ==> t.hub == JoinChannel(h, e.cmd.sender.username, e.cmd.recipient)
    ensures e.CommandEvent? ==> (t.call.Some? <==> e.cmd.id in Dispatched - {JOIN})
    ensures e.CommandEvent? && e.cmd.id == LEAVE ==> t.call == Some(LeaveChannel(e.cmd.sender, e.cmd.recipient))
    ensures e.CommandEvent? && e.cmd.id == MSG ==> t.call == Some(Message(e.cmd.sender, e.cmd.recipient, e.cmd.body))
    ensures e.CommandEvent? && e.cmd.id == USRS ==> t.call == Some(ListUsers(e.cmd.sender))
    ensures e.CommandEvent? && e.cmd.id == CHNS ==> t.call == Some(ListChannels(e.cmd.sender))
  {
    match e
    case RegistrationEvent(c) =>
      var r := Register(h, c);
      Transition(r.hub, [r.reply], Some(r.client), None)
    case DeregistrationEvent(c) =>
      Transition(Deregister(h, c), [], None, None)
    case CommandEvent(cmd) =>
      match cmd.id
      case JOIN => Transition(JoinChannel(h, cmd.sender.username, cmd.recipient), [], None, None)
      case LEAVE => Transition(h, [], None, Some(LeaveChannel(cmd.sender, cmd.recipient)))
      case MSG => Transition(h, [], None, Some(Message(cmd.sender, cmd.recipient, cmd.body)))
      case USRS => Transition(h, [], None, Some(ListUsers(cmd.sender)))
      case CHNS => Transition(h, [], None, Some(ListChannels(cmd.sender)))
      case _ => Transition(h, [], None, None)
  }
}

=== FILE: hub_laws.dfy ===
/** Laws of the hub's transitions: what undoes what, what repeating an
    event does, the invariant the hub keeps, and the ways a connection's
    name can outlive or lose its binding. */
module HubLaws {
  import opened Results
  import opened Clients
  import opened Commands
  import opened Channels
  import opened Hubs

  /** Channels are stored under their own names, and every member of a
      channel is the connection of some registered name. */
  predicate Valid(h: Hub) {
    && (forall name :: name in h.channels ==> h.channels[name].name == name)
    && (forall name, cl :: name in h.channels && cl in h.channels[name].members ==> cl in h.clients.Values)
  }

  /** A deregistering client whose username is a key owns that key. */
  predicate Owned(h: Hub, e: Event) {
    e.DeregistrationEvent? && e.client.username in h.clients ==> h.clients[e.client.username] == e.client.conn
  }

  /** Removing a name bound to `cl` keeps every other connection's
      binding: a value survives unless it was only reachable through the
      removed key. */
  lemma ValuesAfterRemove(m: map<string, ConnId>, u: string, x: ConnId)
    requires x in m.Values && (u in m ==> x != m[u])
    ensures x in (m - {u}).Values
  {
    var k :| k in m && m[k] == x;
    assert k != u;
    assert (m - {u})[k] == x;
  }

  /** Registering keeps every bound connection bound. */
  lemma ValuesAfterInsert(m: map<string, ConnId>, u: string, v: ConnId, x: ConnId)
    requires x in m.Values && u !in m
    ensures x in m[u := v].Values
  {
    var k :| k in m && m[k] == x;
    assert m[u := v][k] == x;
  }

  lemma {:induction false} RegisterKeepsValid(h: Hub, c: Client)
    requires Valid(h)
    ensures Valid(Register(h, c).hub)
  {
    var r := Register(h, c).hub;
    if c.username !in h.clients {
      forall name, cl | name in r.channels && cl in r.channels[name].members
        ensures cl in r.clients.Values
      {
        ValuesAfterInsert(h.clients, c.username, c.conn, cl);
      }
    }
  }

  lemma {:induction false} DeregisterKeepsValid(h: Hub, c: Client)
    requires Valid(h)
    requires c.username in h.clients ==> h.clients[c.username] == c.conn
    ensures Valid(Deregister(h, c))
  {
    var r := Deregister(h, c);
    if c.username in h.clients {
      forall name, cl | name in r.channels && cl in r.channels[name].members
        ensures cl in r.clients.Values
      {
        assert cl in h.channels[name].members && cl != c.conn;
        ValuesAfterRemove(h.clients, c.username, cl);
      }
    }
  }

  lemma {:induction false} JoinKeepsValid(h: Hub, username: string, name: string)
    requires Valid(h)
    ensures Valid(JoinChannel(h, username, name))
  {
    var r := JoinChannel(h, username, name);
    if username in h.clients {
      assert h.clients[username] in h.clients.Values;
      forall n, cl | n in r.channels && cl in r.channels[n].members
        ensures cl in r.clients.Values
      {
        if n != name {
          assert cl in h.channels[n].members;
        } else if cl != h.clients[username] {
          assert cl in h.channels[n].members;
        }
      }
    }
  }

  /** Every step keeps the hub valid, provided a deregistering client
      still owns the name it is registered under. */
  lemma {:induction false} StepKeepsValid(h: Hub, e: Event)
    requires Valid(h) && Owned(h, e)
    ensures Valid(Step(h, e).hub)
  {
    match e
    case RegistrationEvent(c) => RegisterKeepsValid(h, c);
    case DeregistrationEvent(c) => DeregisterKeepsValid(h, c);
    case CommandEvent(cmd) =>
      if cmd.id == JOIN {
        JoinKeepsValid(h, cmd.sender.username, cmd.recipient);
      }
  }

  /** Without ownership the invariant breaks: a client whose username field
      names another connection's key removes that key, while the other
      connection stays in its channels. */
  lemma DeregisterByNameAlone()
    ensures var h := Hub(map["#go" := Channel("#go", {1}, map[])], map["@ann" := 1]);
      && Valid(h)
      && !Owned(h, DeregistrationEvent(Client(2, "@ann")))
      && !Valid(Deregister(h, Client(2, "@ann")))
  {
    var h := Hub(map["#go" := Channel("#go", {1}, map[])], map["@ann" := 1]);
    assert 1 in h.clients.Values by { assert h.clients["@ann"] == 1; }
    var r := Deregister(h, Client(2, "@ann"));
    assert r.clients == map[];
    assert "#go" in r.channels && 1 in r.channels["#go"].members;
    assert 1 !in r.clients.Values;
  }

  /** Registering a new name and deregistering it again restores the hub,
      when the connection was in no channel. */
  lemma {:induction false} DeregisterUndoesRegister(h: Hub, c: Client)
    requires c.username !in h.clients
    requires forall name :: name in h.channels ==> !UserIsMember(h.channels[name], c.conn)
    ensures Deregister(Register(h, c).hub, Register(h, c).client) == h
  {
    var r := Register(h, c);
    var d := Deregister(r.hub, r.client);
    assert d.clients == h.clients;
    forall name | name in h.channels ensures d.channels[name] == h.channels[name] {
      assert h.channels[name].members - {c.conn} == h.channels[name].members;
    }
    assert d.channels == h.channels;
  }

  /** Joining a channel one is already in changes nothing. */
  lemma {:induction false} JoinIdempotent(h: Hub, username: string, name: string)
    ensures JoinChannel(JoinChannel(h, username, name), username, name) == JoinChannel(h, username, name)
  {
    var once := JoinChannel(h, username, name);
    var twice := JoinChannel(once, username, name);
    if username in h.clients {
      var cl := h.clients[username];
      assert once.channels[name].members + {cl} == once.channels[name].members;
      assert twice.channels == once.channels;
    }
  }

  /** Two registered clients joining a missing channel end up as the only
      members of one channel of that name. */
  lemma {:induction false} JoinTwiceSharesChannel(h: Hub, a: string, b: string, name: string)
    requires UserRegistered(h, a) && UserRegistered(h, b) && !ChannelExists(h, name)
    ensures var r := JoinChannel(JoinChannel(h, a, name), b, name);
      && r.channels.Keys == h.channels.Keys + {name}
      && r.channels[name] == Channel(name, {h.clients[a], h.clients[b]}, map[])
  {
  }

  /** A name used before a connection registers again stays bound to that
      connection after it leaves, because deregister removes only its
      current name; the stale name can never be registered again. */
  lemma {:induction false} RenamingLeavesStaleName(h: Hub, conn: ConnId, first: string, second: string, other: ConnId)
    requires first != second && first !in h.clients && second !in h.clients
    ensures var h1 := Register(h, Client(conn, first)).hub;
      var h2 := Register(h1, Client(conn, second)).hub;
      var h3 := Deregister(h2, Client(conn, second));
      && second !in h3.clients
      && first in h3.clients && h3.clients[first] == conn
      && Register(h3, Client(other, first)).reply == Write(other, TakenReply)
  {
    var h1 := Register(h, Client(conn, first)).hub;
    var h2 := Register(h1, Client(conn, second)).hub;
    assert h2.clients[first] == conn;
  }

  /** A refused registration clears the client's username, so the
      connection's later departure removes nothing: a name it held before
      stays bound to it. */
  lemma {:induction false} RefusedRenameLeavesStaleName(h: Hub, conn: ConnId, first: string, taken: string)
    requires first != [] && first !in h.clients && taken in h.clients && [] !in h.clients
    ensures var h1 := Register(h, Client(conn, first)).hub;
      var r := Register(h1, Client(conn, taken));
      && r.client.username == []
      && Deregister(r.hub, r.client) == h1
      && h1.clients[first] == conn
  {
    var h1 := Register(h, Client(conn, first)).hub;
    assert taken in h1.clients && [] !in h1.clients;
  }

  /** None of the command kinds run sends to its default branch has any
      effect. */
  lemma DefaultBranchIsInert(h: Hub, cmd: Command)
    requires cmd.id in {REG, FILES, SEND, GET}
    ensures Step(h, CommandEvent(cmd)) == Transition(h, [], None, None)
  {
  }

  /** Channel names are never removed: no event deletes a channel. */
  lemma StepKeepsChannels(h: Hub, e: Event)
    ensures h.channels.Keys <= Step(h, e).hub.channels.Keys
  {
  }

  /** The membership predicates after a join: the channel exists exactly
      when it did or the name is registered, the joiner is a member, and
      no file store changes. */
  lemma ChecksAfterJoin(h: Hub, username: string, name: string)
    ensures var r := JoinChannel(h, username, name);
      && (ChannelExists(r, name) <==> ChannelExists(h, name) || UserRegistered(h, username))
      && (UserRegistered(h, username) ==> UserIsMember(r.channels[name], h.clients[username]))
      && (forall n, f :: ChannelExists(h, n) ==> (FileExists(r.channels[n], f) <==> FileExists(h.channels[n], f)))
      && (forall u :: UserRegistered(r, u) <==> UserRegistered(h, u))
  {
  }
}

=== FILE: parser.dfy ===
/** The per-connection command parser (client.go): one line read from a
    connection becomes a command for the hub, a registration, the start of a
    file upload, or an error reply written back to the same connection. */
module Parser {
  import opened Results
  import opened Bytes
  import opened Clients
  import opened Commands

  /** The MSG length delimiter. Declared as a raw string, it is the four
      bytes backslash, 'r', backslash, 'n' and not a carriage return and a
      line feed. */
  const Delimiter: string := @"\r\n"

  const UsernameSigilError: string := "->> ERR: Username must begin with @"
  const UsernameBlankError: string := "->> ERR: Username cannot be blank"
  const JoinSigilError: string := "->> ERR: ChannelID must begin with '#'"
  const LeaveSigilError: string := "->> ERR: ChannelID must start with '#'"
  const RecipientSigilError: string := "->> ERR: Recipient must be a channel ('#name') or a user (''@user)"
  const RecipientNameError: string := "->> ERR: Recipient must have a name"
  const LengthMissingError: string := "->> ERR: Body length must be present"
  const LengthZeroError: string := "->> ERR: Body length must be at least 1"
  const FilesNameError: string := "->> ERR : Channel must have a name ('#name')"
  const FilesSigilError: string := "->> ERR: Please provide a channel to look for files ('#name')"
  const ChannelSigilError: string := "->> ERR: Recipient must be a channel ('#name')"
  const ChannelNameError: string := "->> ERR: Recipient must have a name ('#name')"
  const FilenameError: string := "->> ERR: File must be saved with a name"
  const FilenameMissingError: string := "->> ERR: Filename must be provided"
  const UnknownCommand: string := "->> ERR: Unknown command "

  /** The nine keywords the parser recognises. */
  const Keywords: set<string> := {"REG", "JOIN", "LEAVE", "MSG", "FILES", "SEND", "GET", "CHNS", "USRS"}

  /** The keyword spelled like the command kind. */
  function Name(id: Id): string {
    match id
    case REG => "REG"
    case JOIN => "JOIN"
    case LEAVE => "LEAVE"
    case MSG => "MSG"
    case CHNS => "CHNS"
    case USRS => "USRS"
    case FILES => "FILES"
    case SEND => "SEND"
    case GET => "GET"
  }

  /** What a SEND line asks for before the file system is consulted: the
      channel, the name to store the file under, and the local path. */
  datatype SendRequest = SendRequest(recipient: string, filename: string, path: string)

  /** The one effect of handling a line: a command sent to the hub, the
      client (with its new username) sent to the hub's registration queue,
      a SEND that goes on to read a local file, or bytes written back. */
  datatype Outcome =
    | Submit(cmd: Command)
    | Register(client: Client)
    | Upload(request: SendRequest)
    | Reply(data: string)

  /** err: the error text between "ERR " and a newline. */
  function ErrorReply(e: string): (data: string)
  {
    "ERR " + e + "\n"
  }

  /** An error reply is "ERR ", the error text and a newline. */
  lemma ErrorReplyShape(e: string)
    ensures |ErrorReply(e)| == |e| + 5
    ensures HasPrefix(ErrorReply(e), "ERR ")
    ensures ErrorReply(e)[4..|e| + 4] == e && ErrorReply(e)[|e| + 4] == '\n'
  {
  }

  /** A MSG recipient: a channel or user sigil, at least one more byte, and
      no space (it is the first space-separated field). */
  predicate IsRecipient(r: string) {
    |r| >= 2 && (r[0] == '#' || r[0] == '@') && ' ' !in r
  }

  /** The keyword: the first space-separated field of the line, trimmed and
      upper-cased. */
  function Keyword(line: string): string {
    ToUpper(TrimSpace(FirstField(line)))
  }

  /** Where the arguments start: after the upper-cased keyword if the line
      starts with it byte for byte, otherwise at the start of the line. */
  function ArgsFrom(line: string): nat {
    PrefixLen(line, Keyword(line))
  }

  /** The trimmed arguments handed to the per-keyword helpers. */
  function Args(line: string): string {
    TrimSpace(line[ArgsFrom(line)..])
  }

  /** The arguments with their capacity: from the first byte of the trimmed
      arguments to the end of the line. */
  function ArgsCap(line: string): (cap: string)
    ensures HasPrefix(cap, Args(line))
  {
    TrimSpaceStartsTrimLeft(line[ArgsFrom(line)..]);
    TrimLeft(line[ArgsFrom(line)..])
  }

  /** reg. The name is the trimmed argument. It must start with '@'; the
      blank-name check that follows can never fire, because an empty name is
      indexed before it is checked (hence the precondition). */
  function Reg(args: string): (r: Result<string>)
    requires |TrimSpace(args)| > 0
  {
    var u := TrimSpace(args);
    if u[0] != '@' then Err(UsernameSigilError)
    else if |u| == 0 then Err(UsernameBlankError)
    else Ok(u)
  }

  /** reg accepts exactly the trimmed names that start with '@', and its
      blank-name error cannot occur. */
  lemma RegChecks(args: string)
    requires |TrimSpace(args)| > 0
    ensures Reg(args).Ok? <==> TrimSpace(args)[0] == '@'
    ensures Reg(args).Ok? ==> Reg(args).value == TrimSpace(args)
    ensures Reg(args).Err? ==> Reg(args).message == UsernameSigilError
    ensures Reg(args) != Err(UsernameBlankError)
  {
  }

  /** join: the trimmed argument must start with '#' and becomes the
      command's recipient. */
  function Join(sender: Client, args: string): (r: Result<Command>)
    requires |TrimSpace(args)| > 0
  {
    var channelId := TrimSpace(args);
    if channelId[0] != '#' then Err(JoinSigilError)
    else Ok(Command(JOIN, channelId, sender, [], []))
  }

  /** join accepts exactly the trimmed channels that start with '#'. */
  lemma JoinChecks(sender: Client, args: string)
    requires |TrimSpace(args)| > 0
    ensures Join(sender, args).Ok? <==> TrimSpace(args)[0] == '#'
    ensures Join(sender, args).Ok? ==> Join(sender, args).value == Command(JOIN, TrimSpace(args), sender, [], [])
    ensures Join(sender, args).Err? ==> Join(sender, args).message == JoinSigilError
  {
  }

  /** leave: as join, with its own error text. */
  function Leave(sender: Client, args: string): (r: Result<Command>)
    requires |TrimSpace(args)| > 0
  {
    var channelId := TrimSpace(args);
    if channelId[0] != '#' then Err(LeaveSigilError)
    else Ok(Command(LEAVE, channelId, sender, [], []))
  }

  /** leave accepts exactly the trimmed channels that start with '#'. */
  lemma LeaveChecks(sender: Client, args: string)
    requires |TrimSpace(args)| > 0
    ensures Leave(sender, args).Ok? <==> TrimSpace(args)[0] == '#'
    ensures Leave(sender, args).Ok? ==> Leave(sender, args).value == Command(LEAVE, TrimSpace(args), sender, [], [])
    ensures Leave(sender, args).Err? ==> Leave(sender, args).message == LeaveSigilError
  {
  }

  /** The parts of a MSG line found before the body: the recipient, the
      length digits, the length they denote, and `tail`, the rest of the line
      from the first digit on. A Go slice can be re-sliced up to its capacity,
      which here is the end of the line, so `tail` is what the body is cut
      from. */
  datatype Frame = Frame(recipient: string, digits: string, length: int, tail: string)

  /** Where the body starts in the tail: the width of the delimiter past the
      digits, whether or not the delimiter is actually there. */
  function Padding(f: Frame): nat {
    |f.digits| + |Delimiter|
  }

  /** A trimmed slice together with its capacity: `args` trimmed, and the
      bytes from the trimmed slice's start to the end of the line. */
  function TrimWithCap(args: string, cap: string): (r: (string, string))
    requires HasPrefix(cap, args)
    ensures r.0 == TrimSpace(args)
    ensures LeftSpaces(args) <= |cap| && r.1 == cap[LeftSpaces(args)..]
    ensures HasPrefix(r.1, r.0)
    ensures |r.1| <= |cap| && cap[|cap| - |r.1|..] == r.1
  {
    var t := TrimSpace(args);
    var n := LeftSpaces(args);
    var c := cap[n..];
    assert args == cap[..|args|];
    assert t == args[n..n + |t|] == cap[n..n + |t|];
    assert c[..|t|] == cap[n..n + |t|];
    (t, c)
  }

  /** The checks of msg, on the arguments `args0` of a line whose bytes from
      the start of the arguments to the end of the line are `cap0`. The
      recipient is the first field and needs a sigil and a name. */
  function MsgFrame(args0: string, cap0: string): (r: Result<Frame>)
    requires |TrimSpace(args0)| > 0 && HasPrefix(cap0, args0)
  {
    var (args, cap) := TrimWithCap(args0, cap0);
    if args[0] != '#' && args[0] != '@' then Err(RecipientSigilError)
    else
      var recipient := FirstField(args);
      if |recipient| == 1 then Err(RecipientNameError)
      else
        var k := PrefixLen(args, recipient);
        assert HasPrefix(cap[k..], args[k..]);
        LengthFrame(recipient, TrimPrefix(args, recipient), cap[k..])
  }

  /** The bytes from the end of msg's recipient field to the end of the
      line; they start with the rest of the trimmed arguments. */
  function RestCap(args: string, cap: string): (rc: string)
    requires HasPrefix(cap, args)
    ensures HasPrefix(rc, TrimPrefix(TrimSpace(args), FirstField(TrimSpace(args))))
    ensures |rc| <= |cap| && rc == cap[|cap| - |rc|..]
    ensures |cap| - |rc| == LeftSpaces(args) + |FirstField(TrimSpace(args))|
  {
    var a := TrimSpace(args);
    var n := LeftSpaces(args);
    var m := |FirstField(a)|;
    assert HasPrefix(cap[n..], a);
    CapDrop(cap, n, a, m);
    assert TrimPrefix(a, FirstField(a)) == a[m..];
    cap[n + m..]
  }

  /** Where msg's length checks look: at what follows the recipient field
      in the trimmed arguments, and at the bytes from there to the end of
      the line. */
  lemma MsgFrameRest(args: string, cap: string)
    requires |TrimSpace(args)| > 0 && HasPrefix(cap, args)
    ensures var a := TrimSpace(args); var f := FirstField(a);
      IsRecipient(f) ==> MsgFrame(args, cap) == LengthFrame(f, TrimPrefix(a, f), RestCap(args, cap))
  {
    var a := TrimSpace(args);
    var f := FirstField(a);
    var c := TrimWithCap(args, cap).1;
    assert c[|f|..] == RestCap(args, cap);
    assert PrefixLen(a, f) == |f|;
  }

  /** The recipient checks of msg: a missing sigil, then a recipient field
      of one byte; only a recipient with a sigil and a name gets further. */
  lemma MsgRecipientChecks(args: string, cap: string)
    requires |TrimSpace(args)| > 0 && HasPrefix(cap, args)
    ensures var a := TrimSpace(args); var f := FirstField(a); var r := MsgFrame(args, cap);
      && (a[0] != '#' && a[0] != '@' ==> r == Err(RecipientSigilError))
      && ((a[0] == '#' || a[0] == '@') && |f| == 1 ==> r == Err(RecipientNameError))
      && (!IsRecipient(f) ==> r.Err?)
  {
    var a := TrimSpace(args);
    if a[0] == '#' || a[0] == '@' {
      assert |FirstField(a)| >= 1 by { assert a[..1] == [a[0]]; }
    }
  }

  /** What msg's checks guarantee of an accepted frame, and which errors
      they give: a missing sigil, then a recipient field of one byte, then
      the length checks on what follows the recipient. The recipient is the
      first field of the trimmed arguments, and the length checks see the
      rest of the line from the end of that field. */
  lemma MsgFrameChecks(args: string, cap: string)
    requires |TrimSpace(args)| > 0 && HasPrefix(cap, args)
    ensures var a := TrimSpace(args); var f := FirstField(a); var r := MsgFrame(args, cap);
      && (a[0] != '#' && a[0] != '@' ==> r == Err(RecipientSigilError))
      && ((a[0] == '#' || a[0] == '@') && |f| == 1 ==> r == Err(RecipientNameError))
      && (IsRecipient(f) ==> r == LengthFrame(f, TrimPrefix(a, f), RestCap(args, cap)))
      && (r.Ok? ==> r.value.recipient == f && IsRecipient(f))
      && (r.Err? ==> r.message in {RecipientSigilError, RecipientNameError, LengthMissingError, LengthZeroError})
  {
    MsgFrameRest(args, cap);
    MsgRecipientChecks(args, cap);
  }

  /** The second half of msg's checks, on what follows the recipient: the
      length is the text before the first delimiter, an integer other than
      zero. */
  function LengthFrame(recipient: string, rest: string, restCap: string): (r: Result<Frame>)
    requires HasPrefix(restCap, rest)
    ensures r.Ok? ==> r.value.recipient == recipient
    ensures r.Ok? ==> Atoi(r.value.digits) == Some(r.value.length) && r.value.length != 0
    ensures r.Ok? ==> HasPrefix(r.value.tail, r.value.digits)
    ensures r.Err? ==> r.message in {LengthMissingError, LengthZeroError}
  {
    var (args, tail) := TrimWithCap(rest, restCap);
    var l := FirstPiece(args, Delimiter);
    PrefixTransitive(tail, args, l);
    match Atoi(l)
    case None => Err(LengthMissingError)
    case Some(length) =>
      if length == 0 then Err(LengthZeroError)
      else Ok(Frame(recipient, l, length, tail))
  }

  /** The length checks: the digits are the text of the trimmed rest before
      the first delimiter; text that is not an integer gives the
      missing-length error, zero gives the zero-length error, and anything
      else is accepted with the tail starting where the trimmed rest starts
      in the line. */
  lemma LengthFrameChecks(recipient: string, rest: string, restCap: string)
    requires HasPrefix(restCap, rest)
    ensures LeftSpaces(rest) <= |restCap|
    ensures var a := TrimSpace(rest); var l := FirstPiece(a, Delimiter); var r := LengthFrame(recipient, rest, restCap);
      && HasPrefix(a, l)
      && (|l| == |a| || HasPrefix(a[|l|..], Delimiter))
      && (forall i :: 0 <= i < |l| ==> !HasPrefix(a[i..], Delimiter))
      && (Atoi(l).None? <==> r == Err(LengthMissingError))
      && (Atoi(l) == Some(0) <==> r == Err(LengthZeroError))
      && (r.Ok? <==> Atoi(l).Some? && Atoi(l).value != 0)
      && (r.Ok? ==> r.value == Frame(recipient, l, Atoi(l).value, restCap[LeftSpaces(rest)..]))
      && (r.Ok? ==> HasPrefix(r.value.tail, a))
  {
    FirstPieceEarliest(TrimSpace(rest), Delimiter);
  }

  /** The body slice of an accepted frame is in range: a negative length or
      a body running past the end of the line makes msg panic. */
  predicate Fits(r: Result<Frame>) {
    r.Ok? ==> 0 <= r.value.length && Padding(r.value) + r.value.length <= |r.value.tail|
  }

  predicate MsgDefined(args: string, cap: string) {
    && |TrimSpace(args)| > 0
    && HasPrefix(cap, args)
    && Fits(MsgFrame(args, cap))
  }

  /** The end of msg. The body is the `length` bytes after the digits and
      the width of the delimiter. They are cut with Go slice semantics, so
      they may reach past the trimmed arguments up to the end of the line:
      trailing white space of a body is kept. */
  function MsgCommand(sender: Client, r: Result<Frame>): (m: Result<Command>)
    requires Fits(r)
  {
    match r
    case Err(e) => Err(e)
    case Ok(f) =>
      var body := f.tail[Padding(f)..Padding(f) + f.length];
      assert f.tail[..Padding(f)] + body == f.tail[..Padding(f) + f.length];
      Ok(Command(MSG, f.recipient, sender, [], body))
  }

  /** An accepted frame gives a MSG command from the sender whose body is
      `length` bytes cut from the tail right after the padding; an error
      is passed on unchanged. */
  lemma MsgCommandChecks(sender: Client, r: Result<Frame>)
    requires Fits(r)
    ensures var m := MsgCommand(sender, r);
      && (m.Err? <==> r.Err?)
      && (m.Err? ==> m.message == r.message)
      && (m.Ok? ==> m.value.id == MSG && m.value.sender == sender && m.value.header == [])
      && (m.Ok? ==> m.value.recipient == r.value.recipient)
      && (m.Ok? ==> |m.value.body| == r.value.length)
      && (m.Ok? ==> r.value.tail[..Padding(r.value)] + m.value.body <= r.value.tail)
  {
    if r.Ok? {
      var f := r.value;
      assert f.tail[..Padding(f)] + f.tail[Padding(f)..Padding(f) + f.length] == f.tail[..Padding(f) + f.length];
    }
  }

  /** files: the trimmed channel needs more than one byte (checked first)
      and a leading '#'. */
  function Files(sender: Client, args: string): (r: Result<Command>)
  {
    var channelId := TrimSpace(args);
    if |channelId| <= 1 then Err(FilesNameError)
    else if channelId[0] != '#' then Err(FilesSigilError)
    else Ok(Command(FILES, channelId, sender, [], []))
  }

  /** files accepts exactly the trimmed channels of two bytes or more that
      start with '#', and checks the length first. */
  lemma FilesChecks(sender: Client, args: string)
    ensures Files(sender, args).Ok? <==> |TrimSpace(args)| >= 2 && TrimSpace(args)[0] == '#'
    ensures |TrimSpace(args)| <= 1 ==> Files(sender, args) == Err(FilesNameError)
    ensures |TrimSpace(args)| > 1 && TrimSpace(args)[0] != '#' ==> Files(sender, args) == Err(FilesSigilError)
    ensures Files(sender, args).Ok? ==> Files(sender, args).value == Command(FILES, TrimSpace(args), sender, [], [])
  {
  }

  /** The argument checks of send: a '#' channel of more than one byte as
      the first field, then a file name that is the next field and is not
      exactly one byte long (an empty name passes), then the rest as the
      local path. */
  function Send(args: string): (r: Result<SendRequest>)
    requires |TrimSpace(args)| > 0
  {
    var a := TrimSpace(args);
    if a[0] != '#' then Err(ChannelSigilError)
    else
      var recipient := FirstField(a);
      if |recipient| == 1 then Err(ChannelNameError)
      else
        SendFile(recipient, TrimSpace(TrimPrefix(a, recipient)))
  }

  /** The second stage of send, on what follows the channel, trimmed: the
      file name is the first field, and what follows it, trimmed, is the
      local path. */
  function SendFile(recipient: string, rest: string): (r: Result<SendRequest>)
  {
    var filename := FirstField(rest);
    if |filename| == 1 then Err(FilenameError)
    else Ok(SendRequest(recipient, filename, TrimSpace(TrimPrefix(rest, filename))))
  }

  /** What send's checks guarantee of an accepted request, and which
      errors they can give. */
  lemma SendChecks(args: string)
    requires |TrimSpace(args)| > 0
    ensures var a := TrimSpace(args); var f := FirstField(a);
      var rest := TrimSpace(TrimPrefix(a, f)); var name := FirstField(rest);
      && (a[0] != '#' ==> Send(args) == Err(ChannelSigilError))
      && (a[0] == '#' && |f| == 1 ==> Send(args) == Err(ChannelNameError))
      && (a[0] == '#' && |f| != 1 && |name| == 1 ==> Send(args) == Err(FilenameError))
      && (Send(args).Ok? <==> a[0] == '#' && |f| != 1 && |name| != 1)
      && (Send(args).Ok? ==> Send(args).value == SendRequest(f, name, TrimSpace(TrimPrefix(rest, name))))
    ensures Send(args).Ok? ==> var q := Send(args).value;
      && |q.recipient| >= 2 && q.recipient[0] == '#' && ' ' !in q.recipient
      && ' ' !in q.filename
  {
    var a := TrimSpace(args);
    assert a[0] == '#' ==> |FirstField(a)| >= 1 by { assert a[..1] == [a[0]]; }
  }

  /** The command a SEND line results in once the file at the path has been
      read: the body is the file name, a newline and the file's contents. The
      name is used as a format string, so it is taken to hold no '%'. */
  function SendCommand(sender: Client, q: SendRequest, contents: string): (c: Command)
    requires '%' !in q.filename
    ensures c.id == SEND && c.recipient == q.recipient && c.sender == sender
    ensures |c.body| == |q.filename| + 1 + |contents|
    ensures c.body[..|q.filename|] == q.filename
    ensures c.body[|q.filename|] == '\n'
    ensures c.body[|q.filename| + 1..] == contents
  {
    Command(SEND, q.recipient, sender, [], q.filename + "\n" + contents)
  }

  /** get: a '#' channel of more than one byte as the first field, and a
      non-empty trimmed remainder, which becomes the command body. */
  function Get(sender: Client, args: string): (r: Result<Command>)
    requires |TrimSpace(args)| > 0
  {
    var a := TrimSpace(args);
    if a[0] != '#' then Err(ChannelSigilError)
    else
      var recipient := FirstField(a);
      if |recipient| == 1 then Err(ChannelNameError)
      else
        var filename := TrimSpace(TrimPrefix(a, recipient));
        if |filename| == 0 then Err(FilenameMissingError)
        else Ok(Command(GET, recipient, sender, [], filename))
  }

  /** What get's checks guarantee of an accepted command, and which errors
      they can give. */
  lemma GetChecks(sender: Client, args: string)
    requires |TrimSpace(args)| > 0
    ensures var a := TrimSpace(args); var f := FirstField(a); var name := TrimSpace(TrimPrefix(a, f));
      && (a[0] != '#' ==> Get(sender, args) == Err(ChannelSigilError))
      && (a[0] == '#' && |f| == 1 ==> Get(sender, args) == Err(ChannelNameError))
      && (a[0] == '#' && |f| != 1 && |name| == 0 ==> Get(sender, args) == Err(FilenameMissingError))
      && (Get(sender, args).Ok? <==> a[0] == '#' && |f| != 1 && |name| > 0)
      && (Get(sender, args).Ok? ==> Get(sender, args).value == Command(GET, f, sender, [], name))
    ensures Get(sender, args).Ok? ==> var g := Get(sender, args).value;
      && |g.recipient| >= 2 && g.recipient[0] == '#' && ' ' !in g.recipient
      && g.body == TrimSpace(TrimSpace(args)[|g.recipient|..])
  {
    var a := TrimSpace(args);
    assert a[0] == '#' ==> |FirstField(a)| >= 1 by { assert a[..1] == [a[0]]; }
  }

  /** The command kind a keyword names, if any. */
  function Lookup(kw: string): (r: Option<Id>)
    ensures r.Some? <==> kw in Keywords
    ensures r.Some? ==> Name(r.value) == kw
  {
    if kw == "REG" then Some(REG)
    else if kw == "JOIN" then Some(JOIN)
    else if kw == "LEAVE" then Some(LEAVE)
    else if kw == "MSG" then Some(MSG)
    else if kw == "FILES" then Some(FILES)
    else if kw == "SEND" then Some(SEND)
    else if kw == "GET" then Some(GET)
    else if kw == "CHNS" then Some(CHNS)
    else if kw == "USRS" then Some(USRS)
    else None
  }

  /** Every command kind is named by its own keyword. */
  lemma LookupName(id: Id)
    ensures Lookup(Name(id)) == Some(id)
  {
  }

  /** Different kinds have different keywords. */
  lemma NameInjective(a: Id, b: Id)
    ensures Name(a) == Name(b) ==> a == b
  {
    LookupName(a);
    LookupName(b);
  }

  /** The keywords whose helper reads the first byte of its arguments. */
  const Indexing: set<Id> := {REG, JOIN, LEAVE, SEND, GET}

  /** The helper of a keyword does not panic on these arguments: REG, JOIN,
      LEAVE, SEND and GET read the first byte of their arguments, and MSG
      also slices its body. */
  predicate Accepts(id: Id, args: string, cap: string) {
    && (id in Indexing ==> |TrimSpace(args)| > 0)
    && (id == MSG ==> MsgDefined(args, cap))
  }

  /** Handling a line panics exactly when this fails. */
  predicate Defined(line: string) {
    Lookup(Keyword(line)).Some? ==> Accepts(Lookup(Keyword(line)).value, Args(line), ArgsCap(line))
  }

  function Lift(r: Result<Command>): (o: Outcome)
    ensures o.Submit? <==> r.Ok?
    ensures o.Submit? ==> o.cmd == r.value
    ensures o.Reply? ==> o.data == ErrorReply(r.message)
  {
    match r
    case Ok(cmd) => Submit(cmd)
    case Err(e) => Reply(ErrorReply(e))
  }

  /** The outcome of send's checks: the upload, or the error reply. */
  function LiftUpload(r: Result<SendRequest>): (o: Outcome)
    ensures o.Upload? <==> r.Ok?
    ensures o.Upload? ==> o.request == r.value
    ensures o.Reply? ==> o.data == ErrorReply(r.message)
  {
    match r
    case Ok(q) => Upload(q)
    case Err(e) => Reply(ErrorReply(e))
  }

  /** The outcome of reg's checks: the renamed client, or the error reply. */
  function LiftRegister(c: Client, r: Result<string>): (o: Outcome)
    ensures o.Register? <==> r.Ok?
    ensures o.Register? ==> o.client == c.(username := r.value)
    ensures o.Reply? ==> o.data == ErrorReply(r.message)
  {
    match r
    case Ok(u) => Register(c.(username := u))
    case Err(e) => Reply(ErrorReply(e))
  }

  /** The switch of handle, for a recognised keyword: each helper sees the
      arguments, and its error goes back as an error reply. CHNS and USRS
      ignore their arguments. */
  function Dispatch(c: Client, id: Id, args: string, cap: string): (r: Outcome)
    requires Accepts(id, args, cap)
  {
    match id
    case REG => LiftRegister(c, Reg(args))
    case JOIN => Lift(Join(c, args))
    case LEAVE => Lift(Leave(c, args))
    case MSG => Lift(MsgCommand(c, MsgFrame(args, cap)))
    case FILES => Lift(Files(c, args))
    case SEND => LiftUpload(Send(args))
    case GET => Lift(Get(c, args))
    case CHNS => Submit(Bare(c, CHNS))
    case USRS => Submit(Bare(c, USRS))
  }

  /** The switch, one keyword at a time: each keyword reaches its own
      helper. */
  lemma DispatchCases(c: Client, id: Id, args: string, cap: string)
    requires Accepts(id, args, cap)
    ensures id == REG ==> Dispatch(c, id, args, cap) == LiftRegister(c, Reg(args))
    ensures id == JOIN ==> Dispatch(c, id, args, cap) == Lift(Join(c, args))
    ensures id == LEAVE ==> Dispatch(c, id, args, cap) == Lift(Leave(c, args))
    ensures id == MSG ==> Dispatch(c, id, args, cap) == Lift(MsgCommand(c, MsgFrame(args, cap)))
    ensures id == FILES ==> Dispatch(c, id, args, cap) == Lift(Files(c, args))
    ensures id == SEND ==> Dispatch(c, id, args, cap) == LiftUpload(Send(args))
    ensures id == GET ==> Dispatch(c, id, args, cap) == Lift(Get(c, args))
    ensures id == CHNS || id == USRS ==> Dispatch(c, id, args, cap) == Submit(Bare(c, id))
  {
  }

  lemma DispatchReg(c: Client, args: string, cap: string)
    requires |TrimSpace(args)| > 0
    ensures Dispatch(c, REG, args, cap) == LiftRegister(c, Reg(args))
  {
    DispatchCases(c, REG, args, cap);
  }

  lemma DispatchJoin(c: Client, args: string, cap: string)
    requires |TrimSpace(args)| > 0
    ensures Dispatch(c, JOIN, args, cap) == Lift(Join(c, args))
  {
    DispatchCases(c, JOIN, args, cap);
  }

  lemma DispatchLeave(c: Client, args: string, cap: string)
    requires |TrimSpace(args)| > 0
    ensures Dispatch(c, LEAVE, args, cap) == Lift(Leave(c, args))
  {
    DispatchCases(c, LEAVE, args, cap);
  }

  lemma DispatchMsg(c: Client, args: string, cap: string)
    requires MsgDefined(args, cap)
    ensures Dispatch(c, MSG, args, cap) == Lift(MsgCommand(c, MsgFrame(args, cap)))
  {
    DispatchCases(c, MSG, args, cap);
  }

  lemma DispatchFiles(c: Client, args: string, cap: string)
    ensures Dispatch(c, FILES, args, cap) == Lift(Files(c, args))
  {
    DispatchCases(c, FILES, args, cap);
  }

  lemma DispatchSend(c: Client, args: string, cap: string)
    requires |TrimSpace(args)| > 0
    ensures Dispatch(c, SEND, args, cap) == LiftUpload(Send(args))
  {
    DispatchCases(c, SEND, args, cap);
  }

  lemma DispatchGet(c: Client, args: string, cap: string)
    requires |TrimSpace(args)| > 0
    ensures Dispatch(c, GET, args, cap) == Lift(Get(c, args))
  {
    DispatchCases(c, GET, args, cap);
  }

  lemma DispatchBare(c: Client, id: Id, args: string, cap: string)
    requires id == CHNS || id == USRS
    ensures Dispatch(c, id, args, cap) == Submit(Bare(c, id))
  {
    DispatchCases(c, id, args, cap);
  }

  /** Each outcome of the switch comes from the keyword's own helper: a
      command carries the sender and the keyword's kind, a registration
      carries a name starting with '@', an upload only comes from SEND, and
      every error goes back as an error reply. */
  lemma DispatchShape(c: Client, id: Id, args: string, cap: string)
    requires Accepts(id, args, cap)
    ensures var r := Dispatch(c, id, args, cap);
      && (r.Submit? ==> r.cmd.sender == c && r.cmd.id == id)
      && (r.Register? ==> id == REG && r.client == c.(username := TrimSpace(args)) && TrimSpace(args)[0] == '@')
      && (r.Upload? ==> id == SEND)
      && (r.Reply? ==> HasPrefix(r.data, "ERR "))
      && (id == CHNS || id == USRS ==> r == Submit(Bare(c, id)))
  {
    var r := Dispatch(c, id, args, cap);
    if r.Reply? {
      match id
      case REG => ErrorReplyShape(Reg(args).message);
      case JOIN => ErrorReplyShape(Join(c, args).message);
      case LEAVE => ErrorReplyShape(Leave(c, args).message);
      case MSG => ErrorReplyShape(MsgCommand(c, MsgFrame(args, cap)).message);
      case FILES => ErrorReplyShape(Files(c, args).message);
      case SEND => ErrorReplyShape(Send(args).message);
      case GET => ErrorReplyShape(Get(c, args).message);
    }
    match id
    case REG => RegChecks(args);
    case JOIN => JoinChecks(c, args);
    case LEAVE => LeaveChecks(c, args);
    case MSG => MsgCommandChecks(c, MsgFrame(args, cap));
    case FILES => FilesChecks(c, args);
    case SEND =>
    case GET => GetChecks(c, args);
    case CHNS =>
    case USRS =>
  }

  /** handle: dispatch on the keyword. Every line has exactly one effect;
      a rejected line is answered on the same connection and reaches the hub
      not at all. */
  function Handle(c: Client, line: string): (r: Outcome)
    requires Defined(line)
  {
    match Lookup(Keyword(line))
    case None => Reply(ErrorReply(UnknownCommand + Keyword(line)))
    case Some(id) => Dispatch(c, id, Args(line), ArgsCap(line))
  }

  /** handle's outcome matches the keyword: an unknown keyword is answered
      with the unknown-command error naming it, a command has the keyword's
      kind and the line's sender, a registration comes only from REG with the
      trimmed arguments as the name, an upload only from SEND, and every
      reply is an error reply. */
  lemma HandleShape(c: Client, line: string)
    requires Defined(line)
    ensures var r := Handle(c, line);
      && (Keyword(line) !in Keywords ==> r == Reply(ErrorReply(UnknownCommand + Keyword(line))))
      && (r.Submit? ==> r.cmd.sender == c && Name(r.cmd.id) == Keyword(line))
      && (r.Register? ==> Keyword(line) == Name(REG) && r.client == c.(username := Args(line)) && Args(line)[0] == '@')
      && (r.Upload? ==> Keyword(line) == Name(SEND))
      && (r.Reply? ==> HasPrefix(r.data, "ERR "))
      && (Keyword(line) == Name(CHNS) ==> r == Submit(Bare(c, CHNS)))
      && (Keyword(line) == Name(USRS) ==> r == Submit(Bare(c, USRS)))
  {
    match Lookup(Keyword(line))
    case None => ErrorReplyShape(UnknownCommand + Keyword(line));
    case Some(id) =>
      HandleKnown(c, line, id);
      TrimSpaceIdempotent(line[ArgsFrom(line)..]);
      DispatchShape(c, id, Args(line), ArgsCap(line));
      NameInjective(id, CHNS);
      NameInjective(id, USRS);
  }

  /** A recognised keyword whose helper accepts the arguments: handle is
      the helper's outcome. */
  lemma HandleKnown(c: Client, line: string, id: Id)
    requires Keyword(line) == Name(id) && Accepts(id, Args(line), ArgsCap(line))
    ensures Defined(line)
    ensures Handle(c, line) == Dispatch(c, id, Args(line), ArgsCap(line))
  {
    LookupName(id);
  }
}

=== FILE: quirks.dfy ===
/** How the parser treats lines a client would not normally send: the
    keyword is matched without regard to case but removed only when it is
    written in upper case, a REG line without a name panics before the
    blank-name check, and a MSG body is cut from the line whether or not the
    delimiter is there. */
module Quirks {
  import opened Results
  import opened Bytes
  import opened Clients
  import opened Commands
  import opened Parser
  import opened Wire

  /** A line whose keyword is written in lower case. */
  lemma LowerRegKeyword(u: string)
    requires WellFormed(RegReq(u))
    ensures Keyword(Line("reg", u)) == Name(REG)
    ensures ArgsFrom(Line("reg", u)) == 0
  {
    assert "reg" + " " + u + "\n" == "reg" + (" " + (u + "\n"));
    assert ' ' !in "reg";
    FieldBeforeSpace("reg", u + "\n");
    TrimSpaceOfTrimmed("reg");
    assert ToUpper("reg") == "REG";
    assert Line("reg", u)[..3] == "reg" != "REG";
  }

  /** When the keyword is not removed, the arguments are the whole line,
      trimmed. */
  lemma ArgsAtStart(line: string)
    requires ArgsFrom(line) == 0
    ensures Args(line) == TrimSpace(line)
  {
    assert line[0..] == line;
  }

  /** The arguments of a lower-case REG line still start with the keyword,
      since only the upper-case keyword is removed. */
  lemma LowerRegArgs(u: string)
    requires WellFormed(RegReq(u))
    ensures Args(Line("reg", u)) == "reg" + " " + u
  {
    LowerRegKeyword(u);
    ArgsAtStart(Line("reg", u));
    assert Trimmed("reg");
    TrimSpaceOfLine("reg", u);
  }

  /** "reg @name" is recognised as REG but rejected: the name handed to reg
      begins with the lower-case keyword, not with '@'. */
  lemma LowerCaseKeywordIsNotStripped(c: Client, u: string)
    requires WellFormed(RegReq(u))
    ensures Defined(Line("reg", u))
    ensures Handle(c, Line("reg", u)) == Reply(ErrorReply(UsernameSigilError))
  {
    LowerRegArgs(u);
    LowerRegKeyword(u);
    var a := "reg" + " " + u;
    assert a[|a| - 1] == u[|u| - 1];
    TrimSpaceOfTrimmed(a);
    HandleKnown(c, Line("reg", u), REG);
    DispatchReg(c, a, ArgsCap(Line("reg", u)));
  }

  /** A keyword followed by nothing but white space: the arguments are
      empty. */
  lemma BlankLine(kw: string, w: string)
    requires IsUpperWord(kw) && AllSpace(w)
    ensures Keyword(Line(kw, w)) == kw
    ensures Args(Line(kw, w)) == []
  {
    assert Line(kw, w) == kw + " " + (w + "\n");
    SpacedKeywordArgs(kw, w + "\n");
    BlankTail(w);
  }

  /** A space, white space and a newline trim to nothing. */
  lemma BlankTail(w: string)
    requires AllSpace(w)
    ensures TrimSpace(" " + (w + "\n")) == []
  {
    assert AllSpace(" ") && AllSpace("\n");
    AllSpaceAppend(w, "\n");
    AllSpaceAppend(" ", w + "\n");
    TrimSpaceOfSpace(" " + (w + "\n"));
  }

  /** REG followed by nothing but white space has no name to check: reg
      reads the first byte of an empty name and panics, so its blank-name
      error is never produced. */
  lemma BlankRegistrationPanics(w: string)
    requires AllSpace(w)
    ensures Keyword(Line(Name(REG), w)) == Name(REG)
    ensures Args(Line(Name(REG), w)) == []
    ensures !Defined(Line(Name(REG), w))
  {
    NameIsUpperWord(REG);
    BlankLine(Name(REG), w);
    LookupName(REG);
  }

  /** Digits hold no delimiter, so they are their own first piece. */
  lemma DigitsAlone(ds: string)
    requires AllDigits(ds)
    ensures FirstPiece(ds, Delimiter) == ds
  {
    assert Delimiter[0] !in ds by {
      forall i | 0 <= i < |ds| ensures ds[i] != Delimiter[0] {
        assert IsDigit(ds[i]);
      }
    }
    FirstPieceWhole(ds, Delimiter);
  }

  /** The length stage's trimming on a space and digits followed by
      anything: the digits remain and the tail starts at them. */
  lemma SpacedDigits(ds: string, z: string)
    requires AllDigits(ds) && |ds| > 0
    ensures HasPrefix(" " + (ds + z), " " + ds)
    ensures TrimWithCap(" " + ds, " " + (ds + z)) == (ds, ds + z)
  {
    assert Trimmed(ds) by {
      assert IsDigit(ds[0]) && IsDigit(ds[|ds| - 1]);
    }
    SpaceThenTrimmed(ds);
    assert (" " + (ds + z))[1..] == ds + z;
  }

  /** With the trailing white space trimmed, what is left after the
      recipient is just the length. */
  lemma UndelimitedLength(r: string, ds: string, v: int, z: string)
    requires AllDigits(ds) && |ds| > 0 && Atoi(ds) == Some(v) && v != 0
    ensures HasPrefix(" " + (ds + z), " " + ds)
    ensures LengthFrame(r, " " + ds, " " + (ds + z)) == Ok(Frame(r, ds, v, ds + z))
  {
    SpacedDigits(ds, z);
    DigitsAlone(ds);
  }

  /** msg's checks on a MSG line that ends in white space right after the
      length. */
  lemma UndelimitedFrame(r: string, ds: string, v: int, z: string)
    requires IsRecipient(r) && AllDigits(ds) && |ds| > 0 && Atoi(ds) == Some(v) && v != 0
    ensures Trimmed(r + (" " + ds))
    ensures HasPrefix(r + (" " + ds) + z, r + (" " + ds))
    ensures MsgFrame(r + (" " + ds), r + (" " + ds) + z) == Ok(Frame(r, ds, v, ds + z))
  {
    var args := r + (" " + ds);
    var cap := args + z;
    RecipientAndLength(r, ds);
    TrimSpaceOfTrimmed(args);
    assert cap == r + (" " + (ds + z));
    assert cap[..|args|] == args;
    MsgFrameRecipient(r, ds, ds + z);
    UndelimitedLength(r, ds, v, z);
  }

  /** Trimming white space that ends a line leaves nothing. */
  lemma TrimRightOfSpace(w: string)
    requires AllSpace(w)
    ensures TrimRight(w + "\n") == []
  {
    var z := w + "\n";
    assert AllSpace(z) by {
      forall i | 0 <= i < |z| ensures IsSpace(z[i]) {
        if i < |w| {
          assert z[i] == w[i];
        }
      }
    }
    RightSpacesConcat([], z);
    assert [] + z == z;
  }

  /** The keyword and arguments of a MSG line that ends in white space
      right after the length. */
  lemma UndelimitedArgs(r: string, ds: string, w: string)
    requires IsRecipient(r) && AllDigits(ds) && |ds| > 0 && AllSpace(w)
    ensures Keyword(Line("MSG", r + " " + ds + w)) == Name(MSG)
    ensures Args(Line("MSG", r + " " + ds + w)) == r + (" " + ds)
    ensures ArgsCap(Line("MSG", r + " " + ds + w)) == r + (" " + ds) + (w + "\n")
  {
    var x := r + (" " + ds);
    RecipientAndLength(r, ds);
    assert Line("MSG", r + " " + ds + w) == "MSG" + " " + x + (w + "\n");
    assert IsUpperWord("MSG");
    SpacedArgs("MSG", x, w + "\n");
    TrimRightOfSpace(w);
    assert x + [] == x;
  }

  /** A MSG line without the delimiter is accepted when enough white space
      follows the length: the body is cut from that white space and the
      newline, as if the delimiter had been there. */
  lemma MissingDelimiterAccepted(c: Client, r: string, ds: string, v: int, w: string)
    requires IsRecipient(r) && AllDigits(ds) && |ds| > 0 && Atoi(ds) == Some(v) && v > 0
    requires AllSpace(w) && |Delimiter| + v <= |w| + 1
    ensures Defined(Line("MSG", r + " " + ds + w))
    ensures Handle(c, Line("MSG", r + " " + ds + w))
            == Submit(Command(MSG, r, c, [], (w + "\n")[|Delimiter|..|Delimiter| + v]))
  {
    var line := Line("MSG", r + " " + ds + w);
    UndelimitedArgs(r, ds, w);
    UndelimitedFrame(r, ds, v, w + "\n");
    BodyPastLength(c, r, ds, v, w + "\n");
    HandleMsgLine(c, line);
  }
}

=== FILE: replies.dfy ===
/** Replies the hub frames for a client (hubCommunications.go). Each reply
    is the bytes of one write to the client's connection. */
module Replies {
  import opened Results

  const Marker: string := "->> "

  /** communicate: the marker, the response and a newline, in one write. */
  function Communicate(response: string): string {
    Marker + response + "\n"
  }

  /** How a receiver reads a framed reply: the text between the marker and
      the final newline. */
  function Unframe(data: string): Option<string> {
    if |data| >= |Marker| + 1 && data[..|Marker|] == Marker && data[|data| - 1] == '\n'
    then Some(data[|Marker|..|data| - 1])
    else None
  }

  /** Every framed reply reads back as the response that was framed. */
  lemma UnframeCommunicate(response: string)
    ensures Unframe(Communicate(response)) == Some(response)
  {
    var data := Communicate(response);
    assert data[..|Marker|] == Marker;
    assert data[|Marker|..|data| - 1] == response;
  }

  /** The text that reading a reply gives is exactly what was framed, so
      distinct responses are written as distinct bytes. */
  lemma CommunicateInjective(a: string, b: string)
    ensures Communicate(a) == Communicate(b) ==> a == b
  {
    UnframeCommunicate(a);
    UnframeCommunicate(b);
  }

  /** The response for a taken username; it carries its own newline. */
  function UsernameTakenResponse(username: string): string {
    "REG Denied: " + username + " was already taken\n"
  }

  /** commUsernameTaken: the framed response names the user, and since the
      response already ends in a newline the write ends in two. */
  function CommUsernameTaken(username: string): (data: string)
    ensures Unframe(data) == Some(UsernameTakenResponse(username))
    ensures |data| >= 2 && data[|data| - 2..] == "\n\n"
    ensures data[|Marker|..|Marker| + 12] == "REG Denied: "
    ensures data[|Marker| + 12..|Marker| + 12 + |username|] == username
    ensures data[|Marker| + 12 + |username|..|data| - 2] == " was already taken"
  {
    UnframeCommunicate(UsernameTakenResponse(username));
    Communicate(UsernameTakenResponse(username))
  }
}

=== FILE: results.dfy ===
/** Failure-carrying values shared by the model: an optional value and the
    result of a parser step, whose failure carries the Go error text. */
module Results {

  datatype Option<+T> = None | Some(value: T)

  /** A parser helper either succeeds with a value or returns the text of
      the Go `error` it would produce. */
  datatype Result<+T> = Ok(value: T) | Err(message: string)
}

=== FILE: wire.dfy ===
/** The client's side of the line protocol: each request a user can type,
    the line that carries it, and the proof that the parser turns that line
    back into the request. */
module Wire {
  import opened Results
  import opened Bytes
  import opened Clients
  import opened Commands
  import opened Parser

  /** A channel named as the first field of SEND or GET arguments. */
  predicate ChannelName(ch: string) {
    |ch| >= 2 && ch[0] == '#' && ' ' !in ch && '\n' !in ch
  }

  /** A piece of text with no white space at either end. */
  predicate Trimmed(s: string) {
    |s| > 0 && !IsSpace(s[0]) && !IsSpace(s[|s| - 1])
  }

  /** What a user asks of the server, one request per line. */
  datatype Request =
    | RegReq(username: string)
    | JoinReq(channel: string)
    | LeaveReq(channel: string)
    | MsgReq(recipient: string, body: string)
    | FilesReq(channel: string)
    | SendReq(channel: string, filename: string, path: string)
    | GetReq(channel: string, filename: string)
    | ChnsReq
    | UsrsReq

  /** The requests that fit on one line and that the parser accepts. */
  predicate WellFormed(q: Request) {
    match q
    case RegReq(u) => Trimmed(u) && u[0] == '@' && '\n' !in u
    case JoinReq(ch) => Trimmed(ch) && ch[0] == '#' && '\n' !in ch
    case LeaveReq(ch) => Trimmed(ch) && ch[0] == '#' && '\n' !in ch
    case MsgReq(r, b) => IsRecipient(r) && '\n' !in r && 0 < |b| <= MaxInt && '\n' !in b
    case FilesReq(ch) => Trimmed(ch) && |ch| >= 2 && ch[0] == '#' && '\n' !in ch
    case SendReq(ch, f, p) =>
      && ChannelName(ch)
      && |f| >= 2 && !IsSpace(f[0]) && ' ' !in f && '\n' !in f
      && Trimmed(p) && '\n' !in p
    case GetReq(ch, f) => ChannelName(ch) && Trimmed(f) && '\n' !in f
    case ChnsReq => true
    case UsrsReq => true
  }

  /** A line: the keyword, a space, the arguments and the newline. */
  function Line(kw: string, args: string): (line: string)
    ensures |line| == |kw| + |args| + 2 && line[|line| - 1] == '\n'
  {
    kw + " " + args + "\n"
  }

  /** Trimming a line whose keyword and arguments are trimmed removes just
      the newline. */
  lemma TrimSpaceOfLine(kw: string, args: string)
    requires Trimmed(kw) && Trimmed(args)
    ensures TrimSpace(Line(kw, args)) == kw + " " + args
  {
    var a := kw + " " + args;
    assert a[0] == kw[0] && a[|a| - 1] == args[|args| - 1];
    assert Line(kw, args) == [] + a + "\n";
    TrimSpaceAround([], a, "\n");
  }

  /** The line a client sends for a request. A MSG line gives the body's
      length in decimal, then the delimiter, then the body. */
  function Render(q: Request): (line: string)
    ensures |line| > 0 && line[|line| - 1] == '\n'
  {
    match q
    case RegReq(u) => Line("REG", u)
    case JoinReq(ch) => Line("JOIN", ch)
    case LeaveReq(ch) => Line("LEAVE", ch)
    case MsgReq(r, b) => Line("MSG", r + " " + Itoa(|b|) + Delimiter + b)
    case FilesReq(ch) => Line("FILES", ch)
    case SendReq(ch, f, p) => Line("SEND", ch + (" " + (f + (" " + p))))
    case GetReq(ch, f) => Line("GET", ch + (" " + f))
    case ChnsReq => "CHNS\n"
    case UsrsReq => "USRS\n"
  }

  /** What handling the line of a request from client `c` must produce. */
  function Expected(c: Client, q: Request): Outcome {
    match q
    case RegReq(u) => Register(c.(username := u))
    case JoinReq(ch) => Submit(Command(JOIN, ch, c, [], []))
    case LeaveReq(ch) => Submit(Command(LEAVE, ch, c, [], []))
    case MsgReq(r, b) => Submit(Command(MSG, r, c, [], b))
    case FilesReq(ch) => Submit(Command(FILES, ch, c, [], []))
    case SendReq(ch, f, p) => Upload(SendRequest(ch, f, p))
    case GetReq(ch, f) => Submit(Command(GET, ch, c, [], f))
    case ChnsReq => Submit(Bare(c, CHNS))
    case UsrsReq => Submit(Bare(c, USRS))
  }

  /** A line whose keyword and arguments hold no newline ends with its
      only newline. */
  lemma LineIsOneLine(kw: string, args: string)
    requires '\n' !in kw && '\n' !in args
    ensures '\n' !in Line(kw, args)[..|Line(kw, args)| - 1]
  {
    assert Line(kw, args)[..|Line(kw, args)| - 1] == kw + " " + args;
  }

  /** Decimal digits hold no newline. */
  lemma DigitsHaveNoNewline(ds: string)
    requires AllDigits(ds)
    ensures '\n' !in ds
  {
    forall i | 0 <= i < |ds| ensures ds[i] != '\n' {
      assert IsDigit(ds[i]);
    }
  }

  /** A rendered request is exactly one line: the reader, which cuts the
      stream after each newline, hands it to the parser whole. */
  lemma RenderIsOneLine(q: Request)
    requires WellFormed(q)
    ensures |Render(q)| > 0 && Render(q)[|Render(q)| - 1] == '\n'
    ensures '\n' !in Render(q)[..|Render(q)| - 1]
  {
    match q
    case RegReq(u) => LineIsOneLine("REG", u);
    case JoinReq(ch) => LineIsOneLine("JOIN", ch);
    case LeaveReq(ch) => LineIsOneLine("LEAVE", ch);
    case MsgReq(r, b) =>
      DigitsHaveNoNewline(Itoa(|b|));
      LineIsOneLine("MSG", r + " " + Itoa(|b|) + Delimiter + b);
    case FilesReq(ch) => LineIsOneLine("FILES", ch);
    case SendReq(ch, f, p) => LineIsOneLine("SEND", ch + (" " + (f + (" " + p))));
    case GetReq(ch, f) => LineIsOneLine("GET", ch + (" " + f));
    case ChnsReq =>
    case UsrsReq =>
  }

  /** A keyword followed by a space is recognised. */
  lemma SpacedKeyword(kw: string, x: string)
    requires IsUpperWord(kw)
    ensures Keyword(kw + " " + x) == kw
  {
    assert ' ' !in kw;
    FirstPieceBefore(kw, " ", x);
    TrimSpaceOfTrimmed(kw);
    ToUpperOfUpperWord(kw);
  }

  /** A keyword alone on its line is recognised. */
  lemma BareKeyword(kw: string)
    requires IsUpperWord(kw)
    ensures Keyword(kw + "\n") == kw
  {
    FirstPieceWhole(kw + "\n", " ");
    TrimSpaceAround([], kw, "\n");
    assert [] + kw + "\n" == kw + "\n";
    ToUpperOfUpperWord(kw);
  }

  /** Once the keyword is recognised at the start of the line, the
      arguments are the rest of the line, trimmed. */
  lemma ArgsAfterKeyword(kw: string, rest: string)
    requires Keyword(kw + rest) == kw
    ensures Args(kw + rest) == TrimSpace(rest)
    ensures ArgsCap(kw + rest) == rest[LeftSpaces(rest)..]
  {
    assert (kw + rest)[..|kw|] == kw;
    assert (kw + rest)[|kw|..] == rest;
  }

  /** After a keyword and a space, the arguments are the rest, trimmed. */
  lemma SpacedKeywordArgs(kw: string, x: string)
    requires IsUpperWord(kw)
    ensures Keyword(kw + " " + x) == kw
    ensures Args(kw + " " + x) == TrimSpace(" " + x)
  {
    SpacedKeyword(kw, x);
    assert kw + " " + x == kw + (" " + x);
    ArgsAfterKeyword(kw, " " + x);
  }

  /** A keyword alone on its line has no arguments. */
  lemma BareLine(kw: string)
    requires IsUpperWord(kw)
    ensures Keyword(kw + "\n") == kw
    ensures Args(kw + "\n") == []
  {
    BareKeyword(kw);
    ArgsAfterKeyword(kw, "\n");
    LeftSpacesConcat("\n", []);
    assert "\n" + [] == "\n";
  }

  /** A keyword, a space, a word without white space at its ends and the
      rest: the arguments run from the word to the end of the line, less the
      white space there. */
  lemma SpacedArgs(kw: string, x: string, y: string)
    requires IsUpperWord(kw) && Trimmed(x)
    ensures Keyword(kw + " " + x + y) == kw
    ensures Args(kw + " " + x + y) == x + TrimRight(y)
    ensures ArgsCap(kw + " " + x + y) == x + y
  {
    var rest := " " + x + y;
    assert kw + " " + x + y == kw + " " + (x + y);
    assert kw + " " + x + y == kw + rest;
    SpacedKeyword(kw, x + y);
    ArgsAfterKeyword(kw, rest);
    TrimSpaceSpaced(x, y);
    assert rest[1..] == x + y;
  }

  /** The line of a one-argument request: the arguments are the argument. */
  lemma OneArgumentLine(kw: string, a: string)
    requires IsUpperWord(kw) && Trimmed(a)
    ensures Keyword(Line(kw, a)) == kw
    ensures Args(Line(kw, a)) == a
  {
    SpacedArgs(kw, a, "\n");
    assert TrimRight("\n") == [];
  }

  /** Trimming a space followed by a trimmed word gives the word. */
  lemma SpaceThenTrimmed(x: string)
    requires Trimmed(x)
    ensures TrimSpace(" " + x) == x
  {
    TrimSpaceAround(" ", x, []);
    assert " " + x + [] == " " + x;
  }

  /** A word without spaces, followed by a space, is the first field. */
  lemma FieldBeforeSpace(w: string, z: string)
    requires ' ' !in w
    ensures FirstField(w + (" " + z)) == w
    ensures TrimPrefix(w + (" " + z), w) == " " + z
  {
    FirstPieceBefore(w, " ", z);
    assert w + " " + z == w + (" " + z);
    assert (w + (" " + z))[..|w|] == w;
  }

  /** The recipient and length of a MSG line form a word without white
      space at its ends. */
  lemma RecipientAndLength(r: string, ds: string)
    requires IsRecipient(r) && AllDigits(ds) && |ds| > 0
    ensures Trimmed(r + (" " + ds))
  {
    var x := r + (" " + ds);
    assert IsDigit(ds[|ds| - 1]);
    assert x[|x| - 1] == ds[|ds| - 1];
  }

  /** The grouping of a MSG line that the proofs below work with. */
  lemma MsgLineSplit(r: string, ds: string, b: string)
    ensures Line("MSG", r + " " + ds + Delimiter + b)
            == "MSG" + " " + (r + (" " + ds)) + (Delimiter + (b + "\n"))
  {
  }

  /** The keyword and arguments of a rendered MSG line, grouped as the
      recipient and length word, then the rest of the line. */
  lemma MsgLineParts(r: string, ds: string, b: string)
    requires IsRecipient(r) && AllDigits(ds) && |ds| > 0
    ensures Keyword(Line("MSG", r + " " + ds + Delimiter + b)) == Name(MSG)
    ensures Args(Line("MSG", r + " " + ds + Delimiter + b))
            == r + (" " + ds) + TrimRight(Delimiter + (b + "\n"))
    ensures ArgsCap(Line("MSG", r + " " + ds + Delimiter + b))
            == r + (" " + ds) + (Delimiter + (b + "\n"))
  {
    RecipientAndLength(r, ds);
    MsgLineSplit(r, ds, b);
    SpacedArgs("MSG", r + (" " + ds), Delimiter + (b + "\n"));
  }

  /** The arguments of a rendered MSG line, trimmed and with capacity. */
  lemma MsgLineArgs(r: string, ds: string, b: string)
    requires IsRecipient(r) && AllDigits(ds) && |ds| > 0
    ensures Keyword(Line("MSG", r + " " + ds + Delimiter + b)) == Name(MSG)
    ensures Args(Line("MSG", r + " " + ds + Delimiter + b))
            == r + (" " + (ds + (Delimiter + TrimRight(b + "\n"))))
    ensures ArgsCap(Line("MSG", r + " " + ds + Delimiter + b))
            == r + (" " + (ds + (Delimiter + (b + "\n"))))
  {
    MsgLineParts(r, ds, b);
    Regroup(r, ds, b);
  }

  lemma Regroup(r: string, ds: string, b: string)
    ensures r + (" " + ds) + TrimRight(Delimiter + (b + "\n"))
            == r + (" " + (ds + (Delimiter + TrimRight(b + "\n"))))
    ensures r + (" " + ds) + (Delimiter + (b + "\n"))
            == r + (" " + (ds + (Delimiter + (b + "\n"))))
  {
    TrimRightAppend(Delimiter, b + "\n");
  }

  /** The trimmed arguments of a rendered MSG line need no more trimming
      and are a prefix of the rest of the line. */
  lemma MsgArgsTrimmed(r: string, ds: string, t: string, u: string)
    requires IsRecipient(r) && AllDigits(ds) && |ds| > 0
    requires HasPrefix(u, t) && TrimRight(t) == t
    ensures var args := r + (" " + (ds + (Delimiter + t)));
      && TrimSpace(args) == args && |args| > 0 && LeftSpaces(args) == 0
      && HasPrefix(r + (" " + (ds + (Delimiter + u))), args)
  {
    var args := r + (" " + (ds + (Delimiter + t)));
    TrimRightAppend(Delimiter, t);
    var z := Delimiter + t;
    assert z[|z| - 1] == args[|args| - 1];
    assert !IsSpace(z[|z| - 1]);
    TrimSpaceOfTrimmed(args);
    assert u[..|t|] == t;
  }

  /** The digits of a length cannot hold the delimiter's first byte. */
  lemma DigitsBeforeDelimiter(ds: string, t: string)
    requires AllDigits(ds)
    ensures FirstPiece(ds + (Delimiter + t), Delimiter) == ds
  {
    assert Delimiter[0] !in ds by {
      forall i | 0 <= i < |ds| ensures ds[i] != Delimiter[0] {
        assert IsDigit(ds[i]);
      }
    }
    FirstPieceBefore(ds, Delimiter, t);
    assert ds + Delimiter + t == ds + (Delimiter + t);
  }

  /** The trimming step of the length stage on a rendered line: one space
      goes, and the tail starts at the digits. */
  lemma LengthArgs(ds: string, t: string, u: string)
    requires AllDigits(ds) && |ds| > 0
    requires HasPrefix(u, t) && TrimRight(t) == t
    ensures HasPrefix(" " + (ds + (Delimiter + u)), " " + (ds + (Delimiter + t)))
    ensures TrimWithCap(" " + (ds + (Delimiter + t)), " " + (ds + (Delimiter + u)))
            == (ds + (Delimiter + t), ds + (Delimiter + u))
  {
    assert IsDigit(ds[0]) && IsDigit(ds[|ds| - 1]);
    TrimSpaceSpaced(ds, Delimiter + t);
    TrimRightAppend(Delimiter, t);
    assert " " + ds + (Delimiter + t) == " " + (ds + (Delimiter + t));
    assert u[..|t|] == t;
  }

  /** After the recipient: the digits before the delimiter are the length,
      and the tail runs from the digits to the end of the line. */
  lemma LengthFrameOfLine(r: string, ds: string, v: int, t: string, u: string)
    requires AllDigits(ds) && |ds| > 0 && Atoi(ds) == Some(v) && v != 0
    requires HasPrefix(u, t) && TrimRight(t) == t
    ensures HasPrefix(" " + (ds + (Delimiter + u)), " " + (ds + (Delimiter + t)))
    ensures LengthFrame(r, " " + (ds + (Delimiter + t)), " " + (ds + (Delimiter + u)))
            == Ok(Frame(r, ds, v, ds + (Delimiter + u)))
  {
    LengthArgs(ds, t, u);
    DigitsBeforeDelimiter(ds, t);
  }

  /** msg's recipient stage on trimmed arguments that start with a
      recipient and a space: what follows goes to the length stage. */
  lemma MsgFrameRecipient(r: string, x: string, y: string)
    requires IsRecipient(r) && TrimSpace(r + (" " + x)) == r + (" " + x) && LeftSpaces(r + (" " + x)) == 0
    requires HasPrefix(r + (" " + y), r + (" " + x))
    ensures |TrimSpace(r + (" " + x))| > 0
    ensures HasPrefix(" " + y, " " + x)
    ensures MsgFrame(r + (" " + x), r + (" " + y)) == LengthFrame(r, " " + x, " " + y)
  {
    var args := r + (" " + x);
    var cap := r + (" " + y);
    assert TrimWithCap(args, cap) == (args, cap);
    FieldBeforeSpace(r, x);
    assert cap[|r|..] == " " + y;
    assert (" " + y)[..|" " + x|] == cap[|r|..|args|] == args[|r|..] == " " + x;
  }

  /** msg's checks accept the arguments of a rendered MSG line. */
  lemma MsgFrameOfLine(r: string, ds: string, v: int, t: string, u: string)
    requires IsRecipient(r) && AllDigits(ds) && |ds| > 0 && Atoi(ds) == Some(v) && v != 0
    requires HasPrefix(u, t) && TrimRight(t) == t
    ensures var args := r + (" " + (ds + (Delimiter + t)));
      && |TrimSpace(args)| > 0
      && HasPrefix(r + (" " + (ds + (Delimiter + u))), args)
      && MsgFrame(args, r + (" " + (ds + (Delimiter + u))))
         == Ok(Frame(r, ds, v, ds + (Delimiter + u)))
  {
    MsgArgsTrimmed(r, ds, t, u);
    MsgFrameRecipient(r, ds + (Delimiter + t), ds + (Delimiter + u));
    LengthFrameOfLine(r, ds, v, t, u);
  }

  /** handle on a MSG line, as far as the parser goes. */
  lemma HandleMsgLine(c: Client, line: string)
    requires Keyword(line) == Name(MSG) && MsgDefined(Args(line), ArgsCap(line))
    ensures Defined(line)
    ensures Handle(c, line) == Lift(MsgCommand(c, MsgFrame(Args(line), ArgsCap(line))))
  {
    HandleKnown(c, line, MSG);
    DispatchMsg(c, Args(line), ArgsCap(line));
  }

  /** The body is cut at the width of a delimiter past the length digits,
      whatever bytes are there. */
  lemma BodyPastLength(c: Client, r: string, ds: string, v: int, z: string)
    requires 0 < v && |Delimiter| + v <= |z|
    ensures Fits(Ok(Frame(r, ds, v, ds + z)))
    ensures MsgCommand(c, Ok(Frame(r, ds, v, ds + z)))
            == Ok(Command(MSG, r, c, [], z[|Delimiter|..|Delimiter| + v]))
  {
    var tail := ds + z;
    assert tail[|ds| + |Delimiter|..|ds| + |Delimiter| + v] == z[|Delimiter|..|Delimiter| + v];
  }

  /** The body of a rendered MSG line is what follows the delimiter. */
  lemma BodyAfterDelimiter(b: string)
    ensures (Delimiter + (b + "\n"))[|Delimiter|..|Delimiter| + |b|] == b
  {
  }

  /** The trimmed rest of a MSG line is a prefix of the raw rest. */
  lemma TrimmedBody(b: string)
    ensures HasPrefix(b + "\n", TrimRight(b + "\n"))
    ensures TrimRight(TrimRight(b + "\n")) == TrimRight(b + "\n")
  {
    TrimRightIdempotent(b + "\n");
  }

  /** MSG: the body comes back whole, cut from the line by its length. */
  lemma MsgLineRoundTrip(c: Client, r: string, b: string)
    requires IsRecipient(r) && 0 < |b| <= MaxInt
    ensures Defined(Render(MsgReq(r, b)))
    ensures Handle(c, Render(MsgReq(r, b))) == Submit(Command(MSG, r, c, [], b))
  {
    var ds := Itoa(|b|);
    var line := Line("MSG", r + " " + ds + Delimiter + b);
    assert Render(MsgReq(r, b)) == line;
    AtoiItoa(|b|);
    MsgLineArgs(r, ds, b);
    TrimmedBody(b);
    MsgFrameOfLine(r, ds, |b|, TrimRight(b + "\n"), b + "\n");
    BodyPastLength(c, r, ds, |b|, Delimiter + (b + "\n"));
    BodyAfterDelimiter(b);
    HandleMsgLine(c, line);
  }

  /** Keywords are upper-case words. */
  lemma NameIsUpperWord(id: Id)
    ensures IsUpperWord(Name(id))
  {
  }

  /** A line with one trimmed argument reaches the helper of its keyword
      with that argument. */
  lemma OneArgumentHandle(c: Client, id: Id, a: string)
    requires id != MSG && Trimmed(a)
    ensures Defined(Line(Name(id), a))
    ensures Accepts(id, a, ArgsCap(Line(Name(id), a)))
    ensures Handle(c, Line(Name(id), a)) == Dispatch(c, id, a, ArgsCap(Line(Name(id), a)))
  {
    NameIsUpperWord(id);
    OneArgumentLine(Name(id), a);
    TrimSpaceOfTrimmed(a);
    HandleKnown(c, Line(Name(id), a), id);
  }

  /** The arguments of a SEND request have no white space at their ends. */
  lemma SendArgsTrimmed(ch: string, f: string, p: string)
    requires WellFormed(SendReq(ch, f, p))
    ensures Trimmed(f + (" " + p))
    ensures Trimmed(ch + (" " + (f + (" " + p))))
  {
    var rest := f + (" " + p);
    assert rest[|rest| - 1] == p[|p| - 1];
    var a := ch + (" " + rest);
    assert a[|a| - 1] == rest[|rest| - 1];
  }

  /** send's argument checks on the arguments of a SEND request. */
  lemma SendOfArgs(ch: string, f: string, p: string)
    requires WellFormed(SendReq(ch, f, p))
    ensures Send(ch + (" " + (f + (" " + p)))) == Ok(SendRequest(ch, f, p))
  {
    var rest := f + (" " + p);
    var a := ch + (" " + rest);
    SendArgsTrimmed(ch, f, p);
    TrimSpaceOfTrimmed(a);
    FieldBeforeSpace(ch, rest);
    SpaceThenTrimmed(rest);
    assert TrimSpace(TrimPrefix(a, ch)) == rest;
    SendFileOfArgs(ch, f, p);
  }

  /** send's second stage on the file name and path of a rendered SEND
      line. */
  lemma SendFileOfArgs(ch: string, f: string, p: string)
    requires |f| >= 2 && ' ' !in f && Trimmed(p)
    ensures SendFile(ch, f + (" " + p)) == Ok(SendRequest(ch, f, p))
  {
    FieldBeforeSpace(f, p);
    SpaceThenTrimmed(p);
  }

  /** The line of a SEND request, with its arguments grouped. */
  lemma RenderSend(ch: string, f: string, p: string)
    ensures Render(SendReq(ch, f, p)) == Line(Name(SEND), ch + (" " + (f + (" " + p))))
  {
  }

  /** SEND: the channel, the file name and the path come back. */
  lemma SendLineRoundTrip(c: Client, ch: string, f: string, p: string)
    requires WellFormed(SendReq(ch, f, p))
    ensures Defined(Render(SendReq(ch, f, p)))
    ensures Handle(c, Render(SendReq(ch, f, p))) == Upload(SendRequest(ch, f, p))
  {
    var a := ch + (" " + (f + (" " + p)));
    RenderSend(ch, f, p);
    SendArgsTrimmed(ch, f, p);
    OneArgumentHandle(c, SEND, a);
    SendOfArgs(ch, f, p);
    TrimSpaceOfTrimmed(a);
    DispatchSend(c, a, ArgsCap(Line(Name(SEND), a)));
  }

  /** get's argument checks on the arguments of a GET request. */
  lemma GetOfArgs(c: Client, ch: string, f: string)
    requires WellFormed(GetReq(ch, f))
    ensures Trimmed(ch + (" " + f))
    ensures Get(c, ch + (" " + f)) == Ok(Command(GET, ch, c, [], f))
  {
    var a := ch + (" " + f);
    assert a[|a| - 1] == f[|f| - 1];
    TrimSpaceOfTrimmed(a);
    FieldBeforeSpace(ch, f);
    SpaceThenTrimmed(f);
  }

  /** The line of a GET request, with its arguments grouped. */
  lemma RenderGet(ch: string, f: string)
    ensures Render(GetReq(ch, f)) == Line(Name(GET), ch + (" " + f))
  {
  }

  /** GET: the channel and the file name come back. */
  lemma GetLineRoundTrip(c: Client, ch: string, f: string)
    requires WellFormed(GetReq(ch, f))
    ensures Defined(Render(GetReq(ch, f)))
    ensures Handle(c, Render(GetReq(ch, f))) == Submit(Command(GET, ch, c, [], f))
  {
    var a := ch + (" " + f);
    RenderGet(ch, f);
    GetOfArgs(c, ch, f);
    OneArgumentHandle(c, GET, a);
    TrimSpaceOfTrimmed(a);
    DispatchGet(c, a, ArgsCap(Line(Name(GET), a)));
  }

  /** reg accepts a trimmed name with the sigil as the new username. */
  lemma RegOfArgs(c: Client, u: string, cap: string)
    requires WellFormed(RegReq(u))
    ensures Dispatch(c, REG, u, cap) == Register(c.(username := u))
  {
    TrimSpaceOfTrimmed(u);
    DispatchReg(c, u, cap);
  }

  /** join, leave and files accept a trimmed channel with the sigil (and,
      for files, a name). */
  lemma ChannelOfArgs(c: Client, q: Request, cap: string)
    requires WellFormed(q) && (q.JoinReq? || q.LeaveReq? || q.FilesReq?)
    ensures Dispatch(c, if q.JoinReq? then JOIN else if q.LeaveReq? then LEAVE else FILES, q.channel, cap)
            == Expected(c, q)
  {
    TrimSpaceOfTrimmed(q.channel);
    match q
    case JoinReq(_) => DispatchJoin(c, q.channel, cap);
    case LeaveReq(_) => DispatchLeave(c, q.channel, cap);
    case FilesReq(_) => DispatchFiles(c, q.channel, cap);
  }

  /** REG, JOIN, LEAVE and FILES: the one argument comes back. */
  lemma OneArgumentRoundTrip(c: Client, q: Request)
    requires WellFormed(q) && (q.RegReq? || q.JoinReq? || q.LeaveReq? || q.FilesReq?)
    ensures Defined(Render(q))
    ensures Handle(c, Render(q)) == Expected(c, q)
  {
    if q.RegReq? {
      assert Render(q) == Line(Name(REG), q.username);
      OneArgumentHandle(c, REG, q.username);
      RegOfArgs(c, q.username, ArgsCap(Render(q)));
    } else {
      var id := if q.JoinReq? then JOIN else if q.LeaveReq? then LEAVE else FILES;
      assert Render(q) == Line(Name(id), q.channel);
      OneArgumentHandle(c, id, q.channel);
      ChannelOfArgs(c, q, ArgsCap(Render(q)));
    }
  }

  /** CHNS and USRS: the bare keyword comes back as the bare command. */
  lemma BareRoundTrip(c: Client, q: Request)
    requires q.ChnsReq? || q.UsrsReq?
    ensures Defined(Render(q))
    ensures Handle(c, Render(q)) == Expected(c, q)
  {
    var id := if q.ChnsReq? then CHNS else USRS;
    assert Render(q) == Name(id) + "\n";
    BareHandle(c, id);
  }

  /** A line holding just CHNS or USRS asks for the bare command. */
  lemma BareHandle(c: Client, id: Id)
    requires id == CHNS || id == USRS
    ensures Defined(Name(id) + "\n")
    ensures Handle(c, Name(id) + "\n") == Submit(Bare(c, id))
  {
    NameIsUpperWord(id);
    BareLine(Name(id));
    HandleKnown(c, Name(id) + "\n", id);
    DispatchBare(c, id, Args(Name(id) + "\n"), ArgsCap(Name(id) + "\n"));
  }

  /** Every well-formed request survives the trip through its line: the
      parser accepts the line without panicking and produces exactly the
      command, registration or upload the request stands for. */
  lemma HandleRender(c: Client, q: Request)
    requires WellFormed(q)
    ensures Defined(Render(q))
    ensures Handle(c, Render(q)) == Expected(c, q)
  {
    match q
    case MsgReq(r, b) => MsgLineRoundTrip(c, r, b);
    case SendReq(ch, f, p) => SendLineRoundTrip(c, ch, f, p);
    case GetReq(ch, f) => GetLineRoundTrip(c, ch, f);
    case ChnsReq => BareRoundTrip(c, q);
    case UsrsReq => BareRoundTrip(c, q);
    case _ => OneArgumentRoundTrip(c, q);
  }
}
